=== FILE: README.md ===
# Pet catalogue core, modelled in Dafny

This project models the core of the fever-app pet catalogue. That core is an Angular front end for a json-server API at `/fever_pets_data/pets`, and the model covers these parts:

- **Pets service (current revision).**
  - It builds the list request's query parameters: `_page`, `_per_page`, one parameter per defined filter, and `_sort`. The sort values are first passed through an allow-list of ten choices, then rewritten as `name` / `-name`, then joined with commas.
  - It keeps an id-keyed cache of pets. Each list response is merged into it.
  - It serves single pets from that cache, or else requests `/fever_pets_data/pets/<id>`.
  - It slices a page of ids out of the cache.
  - It classifies a pet's health from weight / (height × length).
- **Types.** The `sortBy` union, and the `isPetState` runtime validator over arbitrary JavaScript values.
- **Device service.** It classifies a window width as mobile (< 768), tablet (< 1024) or desktop, and passes on a class only when it changes (`distinctUntilChanged`).
- **Pet list page (current revision).** Its pagination state machine:
  - the page held by the service and mirrored by the component, the page size, the device and the filter form;
  - the events submit, reset, debounced desktop form change, page size change, page change, scroll to the end (mobile infinite scroll) and device change;
  - start-up, which is `ngOnInit` followed at once by the device stream's first value (the stream emits the current class on subscription);
  - the handling of the list response.
- **First revision.** The service's two request paths and its health classifier, and the list page's submit / reset / desktop-only form change. This revision has no pagination.

The design of the model:

- Every operation is a pure function over immutable values.
- What a component does to the outside world is returned as a value and not performed. That value is one of: nothing, a list request with its query, or a slice of the cache to show.
- Angular's `HttpParams` is modelled as a list of key/value pairs: `set` drops the key's pairs and appends the new one; `append` adds a pair at the end. Every property is stated per key, through `GetAll(params, key)`, the values found under that key in list order.
- JavaScript numbers are `real` for pet measurements and `int` for ids, pages and sizes.
- A JavaScript value handed to the validator is the `JsValue` datatype.
- Module layout:
  - `wrappers.dfy` holds `Option`.
  - `text.dfy` holds decimal strings, join and split.
  - `pets_types.dfy`, `pet_health.dfy`, `http_query.dfy`, `pet_cache.dfy`, `device_service.dfy` and `pet_list_page.dfy` model the current revision.
  - `legacy_pets_service.dfy` and `legacy_pet_list.dfy` model the first revision.

Paths below are relative to the repository root. `pages/pets` is the current revision and `pets` the first one.

## Model

| member | source | states |
|---|---|---|
| PetsTypes.ParseSortBy | apps/fever-app/src/app/pages/pets/shared/pets.types.ts:53-63 | a string is read as a sort choice only when it is exactly that choice's spelling |
| PetsTypes.ParseSortByRoundTrip | apps/fever-app/src/app/pages/pets/shared/pets.types.ts:53-63 | every member of the `sortBy` union is read back from its spelling |
| PetsTypes.SortByToStringInjective | apps/fever-app/src/app/pages/pets/shared/pets.types.ts:53-63 | the ten members of the union have ten distinct spellings |
| PetsTypes.IsPetState | apps/fever-app/src/app/pages/pets/shared/pets.types.ts:25-46 | `isPetState` holds exactly for a non-null object (or array) with at least one key, whose every key is numeric and whose every value is a non-null object |
| PetsTypes.RejectsNonObjects | apps/fever-app/src/app/pages/pets/shared/pets.types.ts:26-32 | primitives, null and objects without keys are rejected |
| PetsTypes.RejectsNonNumericKey | apps/fever-app/src/app/pages/pets/shared/pets.types.ts:34-37 | one non-numeric key anywhere rejects the value |
| PetsTypes.RejectsNonObjectValue | apps/fever-app/src/app/pages/pets/shared/pets.types.ts:39-42 | one null or non-object value anywhere rejects the value |
| PetsTypes.AcceptsNumericObjectMaps | apps/fever-app/src/app/pages/pets/shared/pets.types.ts:25-46 | a non-empty object of numeric keys to objects is accepted |
| PetsTypes.AcceptsArraysOfObjects | apps/fever-app/src/app/pages/pets/shared/pets.types.ts:34-42 | a non-empty array of objects is accepted too, since its indices are numeric keys |
| PetsTypes.StateToJsIsPetState | apps/fever-app/src/app/pages/pets/shared/pets.types.ts:21-46 | the JavaScript object of a pet state passes the validator exactly when the state is non-empty |
| PetHealth.CalculatePetHealth | apps/fever-app/src/app/pages/pets/shared/pets.service.ts:109-121 | a cat with exactly one life is unhealthy; otherwise unhealthy iff the ratio is outside [2, 5], healthy iff it is in [3, 5], very healthy iff it is in [2, 3) |
| PetHealth.HealthByCrossMultiplication | apps/fever-app/src/app/pages/pets/shared/pets.service.ts:109-121 | for a positive body size d the bands are weight in [3d, 5d], [2d, 3d) and the rest, with no division |
| PetHealth.HealthOrderInWeight | apps/fever-app/src/app/pages/pets/shared/pets.service.ts:109-121 | at fixed dimensions, a heavier pet never goes from healthy back to very healthy, and leaving "unhealthy" upward starts below 2d |
| PetHealth.LabelsDistinct | apps/fever-app/src/app/pages/pets/shared/pets.service.ts:112-120 | the three returned strings name three distinct classes |
| LegacyPetsService.CalculatePetHealth | apps/fever-app/src/app/pets/shared/pets.service.ts:37-49 | the first revision's classifier: the same bands and the same cat rule |
| LegacyPetsService.RevisionsAgree | apps/fever-app/src/app/pets/shared/pets.service.ts:37-49 | both revisions give every pet the same class, whatever its id |
| LegacyPetsService.ServiceExamples | apps/fever-app/src/app/pets/shared/pets.service.spec.ts:83-143 | the five examples: 10981/(42·80) healthy for a 7-life cat and a dog, a 1-life cat unhealthy, 9561/(45·90) very healthy, 1000/(26·51) unhealthy |
| LegacyPetsService.GetPath | apps/fever-app/src/app/pets/shared/pets.service.ts:29-32 | `get(id)` asks for the list path, a slash, then the id unchanged |
| LegacyPetsService.GetPathInjective | apps/fever-app/src/app/pets/shared/pets.service.ts:29-32 | distinct ids are requested on distinct paths |
| LegacyPetsService.PathsMatchCurrentService | apps/fever-app/src/app/pets/shared/pets.service.ts:18-32 | both revisions use the same list and detail endpoints |
| HttpQuery.Set | apps/fever-app/src/app/pages/pets/shared/pets.service.ts:192-194 | after `set` a key holds exactly the new value and every other key is unchanged |
| HttpQuery.Append | apps/fever-app/src/app/pages/pets/shared/pets.service.ts:196-201 | after `append` a key's values gain the new value at the end and every other key is unchanged |
| HttpQuery.AllowListIsSortByUnion | apps/fever-app/src/app/pages/pets/shared/pets.service.ts:218-229 | a string is on the allow-list exactly when it spells a member of the `sortBy` union |
| HttpQuery.AllowListDistinct | apps/fever-app/src/app/pages/pets/shared/pets.service.ts:218-229 | the ten allow-listed strings are pairwise distinct |
| HttpQuery.FilterValidContents | apps/fever-app/src/app/pages/pets/shared/pets.service.ts:231-233 | the filter keeps each allow-listed value as often as it occurs, drops every other value, and keeps input order |
| HttpQuery.TransformSortChoice | apps/fever-app/src/app/pages/pets/shared/pets.service.ts:234-236 | an ascending choice becomes its field name and a descending one `-` followed by the field name |
| HttpQuery.AddSortHttpParams | apps/fever-app/src/app/pages/pets/shared/pets.service.ts:216-242 | an empty sort leaves the parameters alone; otherwise `_sort` holds exactly the joined transform and no other key changes |
| HttpQuery.SortParamRoundTrip | apps/fever-app/src/app/pages/pets/shared/pets.service.ts:231-238 | the `_sort` value reads back as the allow-listed choices of the input, in input order |
| HttpQuery.ReadJoinedKeys | apps/fever-app/src/app/pages/pets/shared/pets.service.ts:232-238 | comma-joining keys that each read back as one sort choice and hold no comma gives a `_sort` value that reads back as exactly those choices |
| HttpQuery.AllInvalidSortGivesEmptySort | apps/fever-app/src/app/pages/pets/shared/pets.service.ts:231-238 | a non-empty sort with no allow-listed value still sends `_sort` as the empty string |
| HttpQuery.AppendFilters | apps/fever-app/src/app/pages/pets/shared/pets.service.ts:196-202 | each key gains its defined filter values in order; undefined and null values are skipped |
| HttpQuery.GenerateHttpParams | apps/fever-app/src/app/pages/pets/shared/pets.service.ts:185-208 | `_page` and `_per_page` hold the page numbers, every key other than `_page`, `_per_page` and `_sort` holds exactly its defined filter values, and `_sort` is present iff a non-empty sort is given |
| HttpQuery.PagedFilters | apps/fever-app/src/app/pages/pets/shared/pets.service.ts:192-202 | before the sort is added, `_page` and `_per_page` hold the page numbers, `_sort` is absent, and every other key holds exactly its defined filter values |
| HttpQuery.AddSortIfGiven | apps/fever-app/src/app/pages/pets/shared/pets.service.ts:204-206 | a given non-empty sort sets `_sort` to its joined value; every key other than `_sort` keeps its values |
| HttpQuery.FilterFieldsReachRequest | apps/fever-app/src/app/pages/pets/shared/pets.service.ts:196-202 | every pet field's filter values reach the request unchanged |
| HttpQuery.PageParamsRoundTrip | apps/fever-app/src/app/pages/pets/shared/pets.service.ts:192-194 | the server reads `_page` and `_per_page` back as the page and page size asked for |
| PetCache.ParsePetsResponse | apps/fever-app/src/app/pages/pets/shared/pets.service.ts:158-166 | one key per id in the response, holding the last pet with that id |
| PetCache.ParseDistinctIds | apps/fever-app/src/app/pages/pets/shared/pets.service.ts:158-166 | a response with distinct ids loses no pet |
| PetCache.ParseConcat | apps/fever-app/src/app/pages/pets/shared/pets.service.ts:158-166 | parsing two responses in a row equals parsing their concatenation |
| PetCache.MergeResponse | apps/fever-app/src/app/pages/pets/shared/pets.service.ts:57-61 | the merged cache has the union of the ids; the response wins; ids it does not mention keep their pet |
| PetCache.MergeIdempotent | apps/fever-app/src/app/pages/pets/shared/pets.service.ts:57-61 | merging the same response again changes nothing |
| PetCache.MergeSequence | apps/fever-app/src/app/pages/pets/shared/pets.service.ts:55-62 | two merges in a row equal one merge of both responses |
| PetCache.GetPet | apps/fever-app/src/app/pages/pets/shared/pets.service.ts:75-85 | no id or an empty id gives an empty pet; a cached numeric id gives the cached pet; anything else requests the detail path of the id |
| PetCache.PetPathInjective | apps/fever-app/src/app/pages/pets/shared/pets.service.ts:83-84 | distinct ids are requested on distinct paths |
| PetCache.ListedPetIsServedFromCache | apps/fever-app/src/app/pages/pets/shared/pets.service.ts:55-85 | after a list response, every pet in it is served from the cache with no request |
| PetCache.GetPetsByIdRange | apps/fever-app/src/app/pages/pets/shared/pets.service.ts:252-279 | as written: without a count the whole cache; otherwise the first `count` cached ids from `startId` upward, never above the number of cached pets |
| PetCache.ScanIdsSpec | apps/fever-app/src/app/pages/pets/shared/pets.service.ts:267-276 | the id loop copies only cached pets with ids in range, skips no cached id below one it copied, and copies the smaller of `count` and the number of cached ids in range |
| PetCache.HighIdsNeverListed | apps/fever-app/src/app/pages/pets/shared/pets.service.ts:265-271 | as written, a cached id above the number of cached pets is on no page |
| PetCache.SparseCacheLosesPage | apps/fever-app/src/app/pages/pets/shared/pets.service.ts:244-279 | with pets 1 and 3 cached, the page of ids 3–4 comes back empty; the documented window holds pet 3 |
| PetCache.GetPetsByIdWindow | apps/fever-app/src/app/pages/pets/shared/pets.service.ts:244-251 | the documented range: the cached pets with ids from `startId` to `startId + count - 1` |
| PetCache.RangeAgreesOnContiguousCache | apps/fever-app/src/app/pages/pets/shared/pets.service.ts:252-279 | when the cached ids are exactly 1..N, the code and its documentation agree on every page from a positive id |
| DeviceService.ClassifyWidth | libs/core/src/lib/services/device.service.ts:22-32 | mobile iff width < 768, tablet iff 768 ≤ width < 1024, desktop iff width ≥ 1024 |
| DeviceService.ClassifyMonotone | libs/core/src/lib/services/device.service.ts:22-32 | a wider window never gets a narrower class |
| DeviceService.DistinctUntilChanged | libs/core/src/lib/services/device.service.ts:33 | the output never repeats a value twice in a row, keeps the first and last input, and only passes input values |
| DeviceService.DistinctUntilChangedIsChangePoints | libs/core/src/lib/services/device.service.ts:33 | the output is exactly the inputs that differ from the input before them |
| DeviceService.DistinctUntilChangedKeepsValues | libs/core/src/lib/services/device.service.ts:33 | every class the input takes appears in the output |
| DeviceService.DistinctUntilChangedIdempotent | libs/core/src/lib/services/device.service.ts:33 | an input without repeats passes unchanged, so filtering twice is filtering once |
| DeviceService.DistinctUntilChangedStutter | libs/core/src/lib/services/device.service.ts:33 | repeating the last value adds no emission |
| DeviceService.GetDevice | libs/core/src/lib/services/device.service.ts:18-35 | the stream emits the class of the initial width and then the class of exactly those resizes that change the class, so it never repeats a class and ends with the class of the current width |
| PetListPage.BuildQuery | apps/fever-app/src/app/pages/pets/pet-list/pet-list.component.ts:186-193 | a name filter iff the search is non-empty, no other filter, and a one-element sort iff a sort value is chosen |
| PetListPage.FormFiltersReachServer | apps/fever-app/src/app/pages/pets/pet-list/pet-list.component.ts:186-195 | the request carries the page, the page size and `name` exactly when the search is non-empty |
| PetListPage.FormSortReachesServer | apps/fever-app/src/app/pages/pets/pet-list/pet-list.component.ts:186-195 | `_sort` is sent iff a sort value is chosen, as the transform of that one value |
| PetListPage.FormSortChoiceReadsBack | apps/fever-app/src/app/pages/pets/pet-list/pet-list.component.ts:186-195 | a chosen sort reaches the server and reads back as the same choice |
| PetListPage.FormInvalidSortReadsBackEmpty | apps/fever-app/src/app/pages/pets/pet-list/pet-list.component.ts:186-195 | a chosen value outside the union reaches the server as an empty sort |
| PetListPage.Construct | apps/fever-app/src/app/pages/pets/pet-list/pet-list.component.ts:44-53 | the page starts in step with the service's page, with size 10 and an empty form |
| PetListPage.UpdatePetList | apps/fever-app/src/app/pages/pets/pet-list/pet-list.component.ts:186-196 | the request is exactly the query built from the form's filters and sort, for the service's page at the current page size |
| PetListPage.AsPetList | apps/fever-app/src/app/pages/pets/pet-list/pet-list.component.ts:174 | a cache slice is shown iff it is non-empty |
| PetListPage.AsPetListIsValidator | apps/fever-app/src/app/pages/pets/shared/pets.types.ts:25-46 | showing a slice iff it is non-empty is exactly the `isPetState` check |
| PetListPage.CacheSlice | apps/fever-app/src/app/pages/pets/shared/pets.service.ts:99-101 | `getPetList` returns the whole cache without a count or with a count of 0; otherwise cached pets, unchanged, with ids from the start id up to the cache size, no id skipped, as many as the count allows |
| PetListPage.DeviceRange | apps/fever-app/src/app/pages/pets/pet-list/pet-list.component.ts:168-172 | mobile asks for the whole cache; other devices ask for `pageSize` ids from the first id of the service's page |
| PetListPage.OnSubmitFiltersForm | apps/fever-app/src/app/pages/pets/pet-list/pet-list.component.ts:83-87 | back to page 1 in both copies, then a request flagged as coming from the button |
| PetListPage.OnResetSearch | apps/fever-app/src/app/pages/pets/pet-list/pet-list.component.ts:93-99 | cleared form, size 10, page 1, then a request |
| PetListPage.OnDesktopFormValuesChange | apps/fever-app/src/app/pages/pets/pet-list/pet-list.component.ts:105-119 | on desktop, page 1 and a request; on any other device nothing happens |
| PetListPage.OnPageSizeChange | apps/fever-app/src/app/pages/pets/pet-list/pet-list.component.ts:126-131 | page 1 with the new size, and a request for page 1 at that size, carrying the form's search and sort, not flagged as a submit |
| PetListPage.OnPageChange | apps/fever-app/src/app/pages/pets/pet-list/pet-list.component.ts:139-143 | both page copies become the new page, then a request for it at the current size, carrying the form's search and sort, not flagged as a submit |
| PetListPage.OnScrollEnd | apps/fever-app/src/app/pages/pets/pet-list/pet-list.component.ts:148-154 | on mobile, the next page and a request for it that carries the form's search and sort and is not flagged as a submit, so its response shows the whole cache; elsewhere nothing |
| PetListPage.OnDeviceChange | apps/fever-app/src/app/pages/pets/pet-list/pet-list.component.ts:162-177 | the page stays; mobile shows the whole cache; other devices show the service's scan from the page's first id (bounded by the number of cached pets), or no list when that scan is empty |
| PetListPage.OnDeviceChangeIntended | apps/fever-app/src/app/pages/pets/shared/pets.service.ts:244-251 | corrected device change: off mobile, a cached id is shown iff it lies on the service's page, with its cached pet |
| PetListPage.DeviceChangeAgreesOnContiguousCache | apps/fever-app/src/app/pages/pets/pet-list/pet-list.component.ts:162-177 | when the cached ids are exactly 1 to N, the device change as written equals the corrected one |
| PetListPage.DeviceChangeLosesSparsePage | apps/fever-app/src/app/pages/pets/pet-list/pet-list.component.ts:171-174 | with only pet 3 cached, page 2 of size 2 on a desktop shows no list, while the corrected device change shows pet 3 |
| PetListPage.OnInit | apps/fever-app/src/app/pages/pets/pet-list/pet-list.component.ts:62-71 | corrected start-up: the service's scan from the first id of the current page is shown if non-empty, otherwise the page is requested |
| PetListPage.OnInitAsWritten | apps/fever-app/src/app/pages/pets/pet-list/pet-list.component.ts:62-71 | start-up as written: the service's scan from id `currentPage` |
| PetListPage.InitLeavesPageBlank | apps/fever-app/src/app/pages/pets/pet-list/pet-list.component.ts:62-73 | a page constructed on service page 2 (default size 10) with pets 1 and 2 cached, off mobile: start-up as written sends no request and the device stream's first value then shows no list; the corrected start-up requests the page |
| PetListPage.StartUpNeverLeavesPageBlank | apps/fever-app/src/app/pages/pets/pet-list/pet-list.component.ts:62-73 | with the page's first id, start-up on any state and cache either requests the page or ends showing a list |
| PetListPage.InitStartIdAsWrittenAgreesOnlyOnPageOne | apps/fever-app/src/app/pages/pets/pet-list/pet-list.component.ts:62-66 | for sizes above 1, the written start id is right only on page 1 |
| PetListPage.InitShowsDevicePage | apps/fever-app/src/app/pages/pets/pet-list/pet-list.component.ts:62-73 | off mobile, when the corrected start-up shows a list, the device stream's first value shows the same list |
| PetListPage.RunKeepsSynced | apps/fever-app/src/app/pages/pets/pet-list/pet-list.component.ts:83-154 | after any sequence of events the component's page equals the service's page |
| PetListPage.FetchMatchesState | apps/fever-app/src/app/pages/pets/pet-list/pet-list.component.ts:186-196 | every request an event sends carries the page and page size of the state it leaves |
| PetListPage.RunKeepsWellFormed | apps/fever-app/src/app/pages/pets/pet-list/pet-list.component.ts:126-172 | given positive pages and sizes, the page stays positive and every window starts at a positive id |
| PetListPage.ScrollingOnMobile | apps/fever-app/src/app/pages/pets/pet-list/pet-list.component.ts:148-154 | on mobile, n scrolls to the end advance the page by exactly n |
| PetListPage.PagesPartitionIds | apps/fever-app/src/app/pages/pets/pet-list/pet-list.component.ts:171-172 | every positive id lies in the window of exactly one page, page (id − 1) / size + 1 |
| PetListPage.CachedPetOnExactlyOnePage | apps/fever-app/src/app/pages/pets/pet-list/pet-list.component.ts:171-172 | every cached pet with a positive id is shown on exactly one page |
| PetListPage.OnListResponse | apps/fever-app/src/app/pages/pets/pet-list/pet-list.component.ts:194-206 | the response is merged into the cache; mobile (unless submitted) shows the whole cache, otherwise the parsed response |
| PetListPage.MobileListAccumulates | apps/fever-app/src/app/pages/pets/pet-list/pet-list.component.ts:197-200 | on mobile, everything shown before stays shown and the new pets are added |
| LegacyPetList.LegacyInit | apps/fever-app/src/app/pets/pet-list/pet-list.component.ts:45-54 | page 1 of 10, the class of the current width as the device (the stream emits it on subscription), an empty form, and the argument-free `getList()` request on the fixed path |
| LegacyPetList.LegacyUpdatePetList | apps/fever-app/src/app/pets/pet-list/pet-list.component.ts:116-132 | the form's query for the current page, sent to the fixed list path |
| LegacyPetList.LegacySubmit | apps/fever-app/src/app/pets/pet-list/pet-list.component.ts:74-77 | page 1, then exactly the list request `updatePetList` builds from the new state: page 1 at the current size, with the form's filters and sort |
| LegacyPetList.LegacyReset | apps/fever-app/src/app/pets/pet-list/pet-list.component.ts:83-88 | cleared form, size 10, page 1, then exactly the list request `updatePetList` builds from that state: no name filter and no sort |
| LegacyPetList.LegacyFormValuesChange | apps/fever-app/src/app/pets/pet-list/pet-list.component.ts:94-107 | on a known desktop, page 1 and a request; otherwise nothing |
| LegacyPetList.LegacyStaysOnFirstPage | apps/fever-app/src/app/pets/pet-list/pet-list.component.ts:47-107 | no sequence of events leaves page 1 of size 10 |
| LegacyPetList.LegacyRequestIgnoresForm | apps/fever-app/src/app/pets/pet-list/pet-list.component.ts:124-125 | every request goes to the fixed list path, whatever the form holds |
| LegacyPetList.LegacyFormChangeNeedsDesktop | apps/fever-app/src/app/pets/pet-list/pet-list.component.ts:101-106 | on a device other than a desktop, a settled form sends nothing |
| LegacyPetList.LegacyDesktopFormSettledRequests | apps/fever-app/src/app/pets/pet-list/pet-list.component.ts:101-105 | in a desktop-wide window the device is known from construction, so the first settled form sends a request for page 1 |
| LegacyPetList.RevisionsBuildSameQuery | apps/fever-app/src/app/pets/pet-list/pet-list.component.ts:116-123 | both revisions build the same query from the same form, page and size |

## Left out

- The order of keys in `HttpParams` and its grouping of a key's values at the key's first position (Angular keeps a map from key to values): properties are stated per key, and the service never sets one key twice.
- HTTP, Observables, subscriptions, `takeUntilDestroyed` and change detection: an event's outcome is returned as a value and not performed.
- The list request's response is a parameter. The list request and the response handling are separate steps: `OnListResponse` models the subscription.
- Debounce timing (1000 ms), and `distinctUntilChanged` on the form's value objects. The settled form is one event, delivered whenever the page chooses.
- Window width reading and resize events: widths are parameters of `GetDevice`.
- The pet of the day (`getPetOfTheDay`, `isPetOfTheDaySameDayAsNow`, `generateAndSavePetOfTheDay`, `getRandomNumber`): it depends on the clock, on randomness and on local storage.
- UI components, routing, the nav bar and the detail pages.
- JavaScript `Number()` parsing. A numeric key is an optionally negated digit string. `get`'s `Number(id)` accepts those and nothing else, so strings such as `"1.0"`, `" 1"` or `"0x1"` are not modelled.
- `HttpParams` internals: its lazy update queue and URL encoding.
- `addSortHttpParams`'s `typeof s === 'string'` test: sort values are typed as strings.
- Inherited enumerable properties in `isPetState`'s `for ... in`: a value's entries are its own properties.
- `getPetsByIdRange` tests the truthiness of `pets[id]`. A cached pet is an object, so that test is modelled as key membership.
- Ids, pages, sizes and counts are integers. Fractional and `NaN` values are not modelled.
- PetHealth.CalculatePetHealth: requires height × length ≠ 0, because a zero or `NaN` denominator gives an `Infinity`/`NaN` ratio. Those ratios are left out, like floating-point rounding in general.
- LegacyPetsService.CalculatePetHealth: the same denominator requirement, for the same reason.
- The first revision's list page is not reachable: `app.routes.ts:7` loads only `./pages/pets`. Its `updatePetList` calls `getList(filters, page, size, sort)`, but that revision's `getList()` takes no parameters, so the call would not type-check and the page could not be built. The model gives the call the one meaning the service has, a request to the fixed list path; the query is still built and carried in the effect, and `LegacyRequestIgnoresForm` states that it never reaches the path.
- The first revision's list response only replaces the displayed list (`this.pets = signal(petList)`), so it has no state to model.
- The `PetsList` interface of the first revision's types is unused.

## Findings

| source | as written | input that shows it | evidently intended | confidence | as-written member | corrected member |
|---|---|---|---|---|---|---|
| apps/fever-app/src/app/pages/pets/shared/pets.service.ts:267-270 | the id scan stops at `Object.keys(pets).length`, the number of cached pets, not at the highest cached id | pets 1 and 3 cached, start id 3, count 2: the result is empty; only pet 3 cached, page 2 of size 2 on a desktop: the page shows no list | the pets with ids from `startId` to `startId + count - 1`, as the doc comment at lines 244-251 says | not executed | PetCache.GetPetsByIdRange, PetCache.SparseCacheLosesPage, PetListPage.DeviceChangeLosesSparsePage | PetCache.GetPetsByIdWindow, PetListPage.OnDeviceChangeIntended, PetListPage.CachedPetOnExactlyOnePage |
| apps/fever-app/src/app/pages/pets/pet-list/pet-list.component.ts:62-66 | start-up passes the page number `currentPage` as the first id of the cache check that decides whether to request the page | pets 1 and 2 cached, service page 2, the default size 10, desktop: the check from id 2 finds pet 2, so no request is sent; the device stream's first value (line 73) then shows the scan from id 11, which is empty, so the page stays blank | the first id of the page, `(currentPage - 1) * pageSize + 1`, as `onDeviceChange` computes it at line 171 | not executed | PetListPage.OnInitAsWritten, PetListPage.InitLeavesPageBlank | PetListPage.OnInit, PetListPage.StartUpNeverLeavesPageBlank |

=== FILE: device_service.dfy ===
/**
 * The device service: a window width is classified as mobile, tablet or
 * desktop, and the stream of classifications (one at subscription, one per
 * resize) only passes on a value that differs from the previous one.
 */
module DeviceService {

  datatype Device = Mobile | Tablet | Desktop {
    /** Position in the order the classes take as the window widens. */
    function Rank(): nat {
      match this
      case Mobile => 0
      case Tablet => 1
      case Desktop => 2
    }
  }

  const TabletMinWidth: int := 768
  const DesktopMinWidth: int := 1024

  /** The `map` step of `getDevice`: below 768 mobile, below 1024 tablet, desktop otherwise. */
  function ClassifyWidth(width: int): (d: Device)
    ensures d == Mobile <==> width < TabletMinWidth
    ensures d == Tablet <==> TabletMinWidth <= width < DesktopMinWidth
    ensures d == Desktop <==> width >= DesktopMinWidth
  {
    var mobile := width < 768;
    var tablet := width >= 768 && width < 1024;
    if mobile then Mobile
    else if tablet then Tablet
    else Desktop
  }

  /** A wider window never gets a narrower class. */
  lemma ClassifyMonotone(w1: int, w2: int)
    requires w1 <= w2
    ensures ClassifyWidth(w1).Rank() <= ClassifyWidth(w2).Rank()
  {
  }

  predicate NoRepeats(ds: seq<Device>) {
    forall i :: 0 < i < |ds| ==> ds[i] != ds[i - 1]
  }

  /** `distinctUntilChanged`: a value is passed on only when it differs from the last one passed. */
  function DistinctUntilChanged(ds: seq<Device>): (r: seq<Device>)
    ensures |r| <= |ds|
    ensures |r| == 0 <==> |ds| == 0
    ensures |ds| > 0 ==> r[0] == ds[0] && r[|r| - 1] == ds[|ds| - 1]
    ensures NoRepeats(r)
    ensures forall i :: 0 <= i < |r| ==> r[i] in ds
    decreases |ds|
  {
    if |ds| == 0 then []
    else
      var r := DistinctUntilChanged(ds[..|ds| - 1]);
      var d := ds[|ds| - 1];
      if |r| > 0 && r[|r| - 1] == d then r
      else
        assert forall i :: 0 <= i < |r| ==> r[i] in ds by {
          assert forall x :: x in ds[..|ds| - 1] ==> x in ds;
        }
        r + [d]
  }

  /** Every class the input takes is passed on at least once. */
  lemma {:induction false} DistinctUntilChangedKeepsValues(ds: seq<Device>)
    ensures forall i :: 0 <= i < |ds| ==> ds[i] in DistinctUntilChanged(ds)
    decreases |ds|
  {
    if |ds| > 0 {
      var init := ds[..|ds| - 1];
      DistinctUntilChangedKeepsValues(init);
      var r := DistinctUntilChanged(init);
      forall i | 0 <= i < |ds| ensures ds[i] in DistinctUntilChanged(ds) {
        if i < |ds| - 1 {
          assert init[i] == ds[i];
          assert ds[i] in r;
        }
      }
    }
  }

  /** A stream without repeats passes through unchanged, so filtering twice is filtering once. */
  lemma {:induction false} DistinctUntilChangedIdempotent(ds: seq<Device>)
    requires NoRepeats(ds)
    ensures DistinctUntilChanged(ds) == ds
    decreases |ds|
  {
    if |ds| > 0 {
      var init := ds[..|ds| - 1];
      assert NoRepeats(init) by {
        forall i | 0 < i < |init|
          ensures init[i] != init[i - 1]
        {
          assert init[i] == ds[i] && init[i - 1] == ds[i - 1];
        }
      }
      DistinctUntilChangedIdempotent(init);
      assert |init| > 0 ==> init[|init| - 1] == ds[|ds| - 2] != ds[|ds| - 1];
      assert init + [ds[|ds| - 1]] == ds;
    }
  }

  /** Repeating the last value adds no emission. */
  lemma DistinctUntilChangedStutter(ds: seq<Device>)
    requires |ds| > 0
    ensures DistinctUntilChanged(ds + [ds[|ds| - 1]]) == DistinctUntilChanged(ds)
  {
    assert (ds + [ds[|ds| - 1]])[..|ds|] == ds;
  }

  /** The input values that differ from the input value just before them (and the first one). */
  function ChangePoints(ds: seq<Device>): seq<Device>
    decreases |ds|
  {
    if |ds| == 0 then []
    else
      var n := |ds|;
      ChangePoints(ds[..n - 1]) + (if n == 1 || ds[n - 1] != ds[n - 2] then [ds[n - 1]] else [])
  }

  /** The filter passes on exactly the change points of its input, in order. */
  lemma {:induction false} DistinctUntilChangedIsChangePoints(ds: seq<Device>)
    ensures DistinctUntilChanged(ds) == ChangePoints(ds)
    decreases |ds|
  {
    if |ds| > 1 {
      var n := |ds|;
      var init := ds[..n - 1];
      DistinctUntilChangedIsChangePoints(init);
      assert init[|init| - 1] == ds[n - 2];
    }
  }

  /** The widths the stream sees: the width at subscription, then the width at each resize. */
  function Widths(initialWidth: int, resizes: seq<int>): seq<int> {
    [initialWidth] + resizes
  }

  /**
   * `getDevice()`: the classification of the width at subscription first, then
   * the class of every resize that changes it, never the same class twice in a
   * row, and ending at the class of the current width.
   */
  function GetDevice(initialWidth: int, resizes: seq<int>): (r: seq<Device>)
    ensures |r| > 0 && r[0] == ClassifyWidth(initialWidth)
    ensures r[|r| - 1] == ClassifyWidth(Widths(initialWidth, resizes)[|resizes|])
    ensures NoRepeats(r)
    ensures r == ChangePoints(Classes(Widths(initialWidth, resizes)))
  {
    var ds := Classes(Widths(initialWidth, resizes));
    DistinctUntilChangedIsChangePoints(ds);
    DistinctUntilChanged(ds)
  }

  /** The class of each width, in order. */
  function Classes(ws: seq<int>): (ds: seq<Device>)
    ensures |ds| == |ws|
    ensures forall i :: 0 <= i < |ws| ==> ds[i] == ClassifyWidth(ws[i])
  {
    seq(|ws|, i requires 0 <= i < |ws| => ClassifyWidth(ws[i]))
  }
}

=== FILE: http_query.dfy ===
/**
 * The request parameters of the list endpoint: `generateHttpParams` and
 * `addSortHttpParams` of the pets service. Angular's `HttpParams` is
 * modelled as its serialisation, an ordered list of key/value pairs.
 */
module HttpQuery {
  import opened Wrappers
  import opened Text
  import opened PetsTypes

  /**
   * Query parameters, modelled as a list of key/value pairs. Every property is
   * stated per key, through the values `GetAll` finds under it in list order.
   */
  type Params = seq<(string, string)>

  /** Every value recorded under `key`, in order (`HttpParams.getAll`). */
  function GetAll(ps: Params, key: string): seq<string>
    decreases |ps|
  {
    if |ps| == 0 then []
    else (if ps[0].0 == key then [ps[0].1] else []) + GetAll(ps[1..], key)
  }

  /** The first value under `key` (`HttpParams.get`). */
  function Get(ps: Params, key: string): (r: Option<string>)
    ensures r.Some? <==> |GetAll(ps, key)| > 0
    ensures r.Some? ==> r.value == GetAll(ps, key)[0]
  {
    var all := GetAll(ps, key);
    if |all| == 0 then None else Some(all[0])
  }

  lemma {:induction false} GetAllConcat(a: Params, b: Params, key: string)
    ensures GetAll(a + b, key) == GetAll(a, key) + GetAll(b, key)
    decreases |a|
  {
    if |a| == 0 {
      assert a + b == b;
    } else {
      var rest := a[1..] + b;
      assert a + b == [a[0]] + rest;
      GetAllConcat(a[1..], b, key);
      GetAllCons(a[0], rest, key);
    }
  }

  /** Looking up a key in a list that starts with `pair`. */
  lemma GetAllCons(pair: (string, string), rest: Params, key: string)
    ensures GetAll([pair] + rest, key) == (if pair.0 == key then [pair.1] else []) + GetAll(rest, key)
  {
    assert ([pair] + rest)[0] == pair && ([pair] + rest)[1..] == rest;
  }

  lemma GetAllSingle(key: string, value: string, k: string)
    ensures GetAll([(key, value)], k) == if k == key then [value] else []
  {
    assert [(key, value)][1..] == [];
  }

  /** Drops every pair under `key`. */
  function Remove(ps: Params, key: string): (r: Params)
    ensures forall k :: GetAll(r, k) == if k == key then [] else GetAll(ps, k)
    decreases |ps|
  {
    if |ps| == 0 then []
    else if ps[0].0 == key then Remove(ps[1..], key)
    else [ps[0]] + Remove(ps[1..], key)
  }

  /** `params.set(key, value)`: `key` ends up with the single value `value`. */
  function Set(ps: Params, key: string, value: string): (r: Params)
    ensures GetAll(r, key) == [value]
    ensures forall k :: k != key ==> GetAll(r, k) == GetAll(ps, k)
  {
    var kept := Remove(ps, key);
    SetLookup(ps, kept, key, value);
    kept + [(key, value)]
  }

  lemma SetLookup(ps: Params, kept: Params, key: string, value: string)
    requires kept == Remove(ps, key)
    ensures GetAll(kept + [(key, value)], key) == [value]
    ensures forall k :: k != key ==> GetAll(kept + [(key, value)], k) == GetAll(ps, k)
  {
    forall k
      ensures GetAll(kept + [(key, value)], k) == (if k == key then [value] else GetAll(ps, k))
    {
      GetAllConcat(kept, [(key, value)], k);
      GetAllSingle(key, value, k);
    }
  }

  /** `params.append(key, value)`: `value` is added after the values already under `key`. */
  function Append(ps: Params, key: string, value: string): (r: Params)
    ensures GetAll(r, key) == GetAll(ps, key) + [value]
    ensures forall k :: k != key ==> GetAll(r, k) == GetAll(ps, k)
  {
    AppendLookup(ps, key, value);
    ps + [(key, value)]
  }

  lemma AppendLookup(ps: Params, key: string, value: string)
    ensures GetAll(ps + [(key, value)], key) == GetAll(ps, key) + [value]
    ensures forall k :: k != key ==> GetAll(ps + [(key, value)], k) == GetAll(ps, k)
  {
    forall k
      ensures GetAll(ps + [(key, value)], k) == GetAll(ps, k) + (if k == key then [value] else [])
    {
      GetAllConcat(ps, [(key, value)], k);
      GetAllSingle(key, value, k);
    }
  }

  // ---------------------------------------------------------------------
  // Sorting
  // ---------------------------------------------------------------------

  /** The allow-list of `addSortHttpParams`. */
  const ValidSortValues: seq<string> := [
    "nameAsc", "nameDesc", "weightAsc", "weightDesc", "heightAsc",
    "heightDesc", "lengthAsc", "lengthDesc", "kindAsc", "kindDesc"
  ]

  predicate IsValidSortValue(s: string) {
    s in ValidSortValues
  }

  /** Every sort choice of the `sortBy` union is on the allow-list. */
  lemma SortByIsAllowListed(b: SortBy)
    ensures IsValidSortValue(b.ToString())
  {
    var i := match b
      case SortBy(ByName, Asc) => 0
      case SortBy(ByName, Desc) => 1
      case SortBy(ByWeight, Asc) => 2
      case SortBy(ByWeight, Desc) => 3
      case SortBy(ByHeight, Asc) => 4
      case SortBy(ByHeight, Desc) => 5
      case SortBy(ByLength, Asc) => 6
      case SortBy(ByLength, Desc) => 7
      case SortBy(ByKind, Asc) => 8
      case SortBy(ByKind, Desc) => 9;
    assert ValidSortValues[i] == b.ToString();
  }

  /** The allow-list spells ten sort choices of the `sortBy` union, in order. */
  lemma AllowListSpellings()
    ensures |ValidSortValues| == 10
    ensures forall i :: 0 <= i < 10 ==>
      ValidSortValues[i] == SortBy(AllowListField(i), if i % 2 == 0 then Asc else Desc).ToString()
  {
  }

  function AllowListField(i: nat): SortField
    requires i < 10
  {
    [ByName, ByWeight, ByHeight, ByLength, ByKind][i / 2]
  }

  /**
   * The allow-list holds exactly the spellings of the `sortBy` union, each
   * once: a string passes the filter if and only if it names a sort choice.
   */
  lemma AllowListIsSortByUnion(s: string)
    ensures IsValidSortValue(s) <==> ParseSortBy(s).Some?
  {
    if ParseSortBy(s).Some? {
      SortByIsAllowListed(ParseSortBy(s).value);
    }
    if IsValidSortValue(s) {
      AllowListSpellings();
      var i :| 0 <= i < 10 && ValidSortValues[i] == s;
      var b := SortBy(AllowListField(i), if i % 2 == 0 then Asc else Desc);
      assert b.ToString() == s;
      ParseSortByRoundTrip(b);
    }
  }

  /** No value is listed twice. */
  lemma AllowListDistinct(i: nat, j: nat)
    requires i < j < |ValidSortValues|
    ensures ValidSortValues[i] != ValidSortValues[j]
  {
    AllowListSpellings();
    var a := SortBy(AllowListField(i), if i % 2 == 0 then Asc else Desc);
    var b := SortBy(AllowListField(j), if j % 2 == 0 then Asc else Desc);
    if a.ToString() == b.ToString() {
      SortByToStringInjective(a, b);
    }
  }

  /** `s.endsWith('Asc') ? s.slice(0, -3) : '-' + s.slice(0, -4)`. */
  function TransformSortValue(s: string): string {
    if EndsWith(s, "Asc") then DropLast(s, 3) else "-" + DropLast(s, 4)
  }

  /** A valid sort value becomes the field name, prefixed by `-` for descending order. */
  lemma TransformSortChoice(b: SortBy)
    ensures TransformSortValue(b.ToString()) == (if b.dir == Asc then "" else "-") + b.field.Name()
  {
    SortByShape(b);
  }

  /** The `filter` step: the allow-listed values, in input order. */
  function FilterValid(sort: seq<string>): (r: seq<string>)
    ensures |r| <= |sort|
    ensures forall i :: 0 <= i < |r| ==> IsValidSortValue(r[i])
    decreases |sort|
  {
    if |sort| == 0 then []
    else if IsValidSortValue(sort[0]) then [sort[0]] + FilterValid(sort[1..])
    else FilterValid(sort[1..])
  }

  /**
   * The filter keeps every allow-listed value as often as it occurs, drops
   * every other value, and keeps the survivors in input order.
   */
  lemma {:induction false} FilterValidContents(sort: seq<string>)
    ensures forall s :: IsValidSortValue(s) ==> multiset(FilterValid(sort))[s] == multiset(sort)[s]
    ensures forall s :: !IsValidSortValue(s) ==> multiset(FilterValid(sort))[s] == 0
    ensures IsSubsequence(FilterValid(sort), sort)
    decreases |sort|
  {
    if |sort| > 0 {
      FilterValidContents(sort[1..]);
      assert sort == [sort[0]] + sort[1..];
      assert multiset(sort) == multiset([sort[0]]) + multiset(sort[1..]);
      var r := FilterValid(sort);
      if IsValidSortValue(sort[0]) {
        assert r[1..] == FilterValid(sort[1..]);
        assert multiset(r) == multiset([sort[0]]) + multiset(r[1..]) by {
          assert r == [sort[0]] + r[1..];
        }
      } else {
        SubsequenceOfTail(r, sort);
      }
    }
  }

  lemma SubsequenceOfTail(a: seq<string>, b: seq<string>)
    requires |b| > 0 && IsSubsequence(a, b[1..])
    ensures IsSubsequence(a, b)
  {
  }

  /** `a` can be obtained from `b` by deleting elements, keeping the rest in order. */
  predicate IsSubsequence(a: seq<string>, b: seq<string>)
    decreases |b|
  {
    if |a| == 0 then true
    else if |b| == 0 then false
    else (a[0] == b[0] && IsSubsequence(a[1..], b[1..])) || IsSubsequence(a, b[1..])
  }

  /** The `filter` and `map` steps of `addSortHttpParams`. */
  function TransformSort(sort: seq<string>): (r: seq<string>)
    ensures |r| == |FilterValid(sort)| <= |sort|
    ensures forall i :: 0 <= i < |r| ==> r[i] == TransformSortValue(FilterValid(sort)[i])
  {
    var valid := FilterValid(sort);
    seq(|valid|, i requires 0 <= i < |valid| => TransformSortValue(valid[i]))
  }

  /** The value written under `_sort`: the transformed values joined by commas. */
  function SortParamValue(sort: seq<string>): string {
    Join(TransformSort(sort), ',')
  }

  /** `addSortHttpParams`: a non-empty sort list sets `_sort`; an empty one changes nothing. */
  function AddSortHttpParams(ps: Params, sort: seq<string>): (r: Params)
    ensures |sort| == 0 ==> r == ps
    ensures |sort| > 0 ==> GetAll(r, "_sort") == [SortParamValue(sort)]
    ensures forall k :: k != "_sort" ==> GetAll(r, k) == GetAll(ps, k)
  {
    if |sort| > 0 then Set(ps, "_sort", SortParamValue(sort)) else ps
  }

  /** Reads one entry of a `_sort` value: `field` is ascending, `-field` descending. */
  function ParseSortKey(k: string): Option<SortBy> {
    if |k| > 0 && k[0] == '-' then
      match ParseSortField(k[1..])
      case Some(f) => Some(SortBy(f, Desc))
      case None => None
    else
      match ParseSortField(k)
      case Some(f) => Some(SortBy(f, Asc))
      case None => None
  }

  function ParseSortKeys(ks: seq<string>): (r: Option<seq<SortBy>>)
    ensures r.Some? ==> |r.value| == |ks|
    ensures r.Some? ==> forall i :: 0 <= i < |ks| ==> ParseSortKey(ks[i]) == Some(r.value[i])
    decreases |ks|
  {
    if |ks| == 0 then Some([])
    else
      match (ParseSortKey(ks[0]), ParseSortKeys(ks[1..]))
      case (Some(b), Some(bs)) => Some([b] + bs)
      case _ => None
  }

  /** How the server reads a `_sort` value back into sort choices. */
  function ReadSortParam(v: string): Option<seq<SortBy>> {
    if v == "" then Some([]) else ParseSortKeys(Split(v, ','))
  }

  lemma TransformedKeyParses(s: string)
    requires IsValidSortValue(s)
    ensures ',' !in TransformSortValue(s)
    ensures ParseSortKey(TransformSortValue(s)) == ParseSortBy(s)
  {
    AllowListIsSortByUnion(s);
    var b := ParseSortBy(s).value;
    TransformSortChoice(b);
    var t := TransformSortValue(s);
    if b.dir == Desc {
      assert t[1..] == b.field.Name();
    }
  }

  lemma {:induction false} ParseSortKeysAll(ks: seq<string>, bs: seq<SortBy>)
    requires |ks| == |bs|
    requires forall i :: 0 <= i < |ks| ==> ParseSortKey(ks[i]) == Some(bs[i])
    ensures ParseSortKeys(ks) == Some(bs)
    decreases |ks|
  {
    if |ks| > 0 {
      ParseSortKeysAll(ks[1..], bs[1..]);
      assert [bs[0]] + bs[1..] == bs;
    }
  }

  /** Decoding the transformed values one by one gives the choices the valid values spell. */
  lemma TransformSortParses(sort: seq<string>)
    ensures var ts := TransformSort(sort);
      forall i :: 0 <= i < |ts| ==>
        && |ts[i]| > 0 && ',' !in ts[i]
        && ParseSortKey(ts[i]) == ParseSortBy(FilterValid(sort)[i])
        && ParseSortBy(FilterValid(sort)[i]).Some?
  {
    var valid := FilterValid(sort);
    forall i | 0 <= i < |valid|
      ensures |TransformSortValue(valid[i])| > 0
      ensures ',' !in TransformSortValue(valid[i])
      ensures ParseSortKey(TransformSortValue(valid[i])) == ParseSortBy(valid[i])
      ensures ParseSortBy(valid[i]).Some?
    {
      TransformedKeyParses(valid[i]);
      AllowListIsSortByUnion(valid[i]);
      TransformSortChoice(ParseSortBy(valid[i]).value);
    }
  }

  /** The sort choices a list of allow-listed values spells. */
  function ChoicesOf(vs: seq<string>): (bs: seq<SortBy>)
    requires forall i :: 0 <= i < |vs| ==> ParseSortBy(vs[i]).Some?
    ensures |bs| == |vs|
    ensures forall i :: 0 <= i < |vs| ==> ParseSortBy(vs[i]) == Some(bs[i])
  {
    seq(|vs|, i requires 0 <= i < |vs| => ParseSortBy(vs[i]).value)
  }

  /**
   * The `_sort` value decodes to exactly the allow-listed sort choices of the
   * input, in input order: nothing invalid gets through and nothing valid is lost.
   */
  lemma SortParamRoundTrip(sort: seq<string>)
    ensures var r := ReadSortParam(SortParamValue(sort));
      && r.Some?
      && |r.value| == |FilterValid(sort)|
      && forall i :: 0 <= i < |r.value| ==> r.value[i].ToString() == FilterValid(sort)[i]
  {
    var valid := FilterValid(sort);
    TransformSortParses(sort);
    var bs := ChoicesOf(valid);
    ReadJoinedKeys(TransformSort(sort), bs);
  }

  /** Keys that each parse as one sort choice, joined with commas, read back as those choices. */
  lemma ReadJoinedKeys(ts: seq<string>, bs: seq<SortBy>)
    requires |ts| == |bs|
    requires forall i :: 0 <= i < |ts| ==> |ts[i]| > 0 && ',' !in ts[i] && ParseSortKey(ts[i]) == Some(bs[i])
    ensures ReadSortParam(Join(ts, ',')) == Some(bs)
  {
    if |ts| > 0 {
      SplitJoin(ts, ',');
      ParseSortKeysAll(ts, bs);
    }
  }

  // ---------------------------------------------------------------------
  // The full parameter list
  // ---------------------------------------------------------------------

  /** A filter value as `Object.entries` hands it over; `Defined` carries its `toString()`. */
  datatype FilterValue = Undefined | Null | Defined(text: string)

  /** The filter object of a request: a `Partial<Pet>` as its entries, in order. */
  type Filters = seq<(PetField, FilterValue)>

  /** The texts of the defined filter entries whose key is `key`, in order. */
  function DefinedValues(filters: Filters, key: string): seq<string>
    decreases |filters|
  {
    if |filters| == 0 then []
    else
      (if filters[0].0.Key() == key && filters[0].1.Defined? then [filters[0].1.text] else [])
      + DefinedValues(filters[1..], key)
  }

  /** The `forEach` over the filter entries: defined values are appended, the others skipped. */
  function AppendFilters(ps: Params, filters: Filters): (r: Params)
    ensures forall k :: GetAll(r, k) == GetAll(ps, k) + DefinedValues(filters, k)
    decreases |filters|
  {
    if |filters| == 0 then ps
    else
      var (field, value) := filters[0];
      var next := if value.Defined? then Append(ps, field.Key(), value.text) else ps;
      AppendFilters(next, filters[1..])
  }

  /** The values of the filter object under `key`; none when no filter object is given. */
  function FilterValues(filters: Option<Filters>, key: string): seq<string> {
    if filters.Some? then DefinedValues(filters.value, key) else []
  }

  /** `new HttpParams().set('_page', ...).set('_per_page', ...)`. */
  function PageParams(page: int, perPage: int): (r: Params)
    ensures GetAll(r, "_page") == [IntToString(page)]
    ensures GetAll(r, "_per_page") == [IntToString(perPage)]
    ensures forall k :: k != "_page" && k != "_per_page" ==> GetAll(r, k) == []
  {
    Set(Set([], "_page", IntToString(page)), "_per_page", IntToString(perPage))
  }

  /** The keys the service sets itself; they all start with an underscore, unlike any pet field. */
  predicate IsReservedKey(k: string) {
    |k| > 0 && k[0] == '_'
  }

  /** The page parameters followed by the defined filters: the request before its sort. */
  function PagedFilters(filters: Option<Filters>, page: int, perPage: int): (r: Params)
    ensures GetAll(r, "_page") == [IntToString(page)]
    ensures GetAll(r, "_per_page") == [IntToString(perPage)]
    ensures GetAll(r, "_sort") == []
    ensures forall k :: k != "_page" && k != "_per_page" ==> GetAll(r, k) == FilterValues(filters, k)
    ensures forall k :: !IsReservedKey(k) ==> GetAll(r, k) == FilterValues(filters, k)
  {
    var base := PageParams(page, perPage);
    var r := if filters.Some? then AppendFilters(base, filters.value) else base;
    ReservedKeysHoldNoFilters(filters);
    forall k | !IsReservedKey(k)
      ensures GetAll(r, k) == FilterValues(filters, k)
    {
      assert k != "_page" && k != "_per_page";
    }
    r
  }

  /** The page keys differ from the sort key, and so does every key a filter can use. */
  lemma ReservedKeysDistinct()
    ensures "_page" != "_sort" && "_per_page" != "_sort"
    ensures forall k :: !IsReservedKey(k) ==> k != "_sort"
  {
    assert "_page"[1] == 'p' && "_sort"[1] == 's';
    assert "_sort"[0] == '_';
  }

  /** `if (sort) params = addSortHttpParams(params, sort)`. */
  function AddSortIfGiven(ps: Params, sort: Option<seq<string>>): (r: Params)
    ensures GetAll(r, "_page") == GetAll(ps, "_page")
    ensures GetAll(r, "_per_page") == GetAll(ps, "_per_page")
    ensures forall k :: k != "_sort" ==> GetAll(r, k) == GetAll(ps, k)
    ensures forall k :: !IsReservedKey(k) ==> GetAll(r, k) == GetAll(ps, k)
    ensures sort.Some? && |sort.value| > 0 ==> GetAll(r, "_sort") == [SortParamValue(sort.value)]
    ensures sort.None? || |sort.value| == 0 ==> GetAll(r, "_sort") == GetAll(ps, "_sort")
  {
    if sort.Some? then
      var r := AddSortHttpParams(ps, sort.value);
      SortKeepsOtherKeys(ps, r);
      r
    else ps
  }

  /** A list that differs from `ps` only under `_sort` keeps its page and filter values. */
  lemma SortKeepsOtherKeys(ps: Params, r: Params)
    requires forall k :: k != "_sort" ==> GetAll(r, k) == GetAll(ps, k)
    ensures GetAll(r, "_page") == GetAll(ps, "_page")
    ensures GetAll(r, "_per_page") == GetAll(ps, "_per_page")
    ensures forall k :: !IsReservedKey(k) ==> GetAll(r, k) == GetAll(ps, k)
  {
    ReservedKeysDistinct();
    KeptKey(ps, r, "_page");
    KeptKey(ps, r, "_per_page");
  }

  lemma KeptKey(ps: Params, r: Params, key: string)
    requires forall k :: k != "_sort" ==> GetAll(r, k) == GetAll(ps, k)
    requires key != "_sort"
    ensures GetAll(r, key) == GetAll(ps, key)
  {
  }

  /**
   * `generateHttpParams`: `_page` and `_per_page` always, then the defined
   * filters, then `_sort` when a non-empty sort list is given.
   */
  function GenerateHttpParams(filters: Option<Filters>, page: int, perPage: int, sort: Option<seq<string>>)
    : (r: Params)
    ensures GetAll(r, "_page") == [IntToString(page)]
    ensures GetAll(r, "_per_page") == [IntToString(perPage)]
    ensures forall k :: k != "_page" && k != "_per_page" && k != "_sort" ==> GetAll(r, k) == FilterValues(filters, k)
    ensures forall k :: !IsReservedKey(k) ==> GetAll(r, k) == FilterValues(filters, k)
    ensures sort.Some? && |sort.value| > 0 ==> GetAll(r, "_sort") == [SortParamValue(sort.value)]
    ensures sort.None? || |sort.value| == 0 ==> GetAll(r, "_sort") == []
  {
    AddSortIfGiven(PagedFilters(filters, page, perPage), sort)
  }

  /** Every field of a `Partial<Pet>` filter reaches the request with exactly its defined values. */
  lemma FilterFieldsReachRequest(filters: Option<Filters>, page: int, perPage: int, sort: Option<seq<string>>, f: PetField)
    ensures GetAll(GenerateHttpParams(filters, page, perPage, sort), f.Key()) == FilterValues(filters, f.Key())
  {
  }

  lemma {:induction false} NoFilterUnderReservedKey(filters: Filters, key: string)
    requires |key| > 0 && key[0] == '_'
    ensures DefinedValues(filters, key) == []
    decreases |filters|
  {
    if |filters| > 0 {
      NoFilterUnderReservedKey(filters[1..], key);
    }
  }

  lemma ReservedKeysHoldNoFilters(filters: Option<Filters>)
    ensures FilterValues(filters, "_page") == []
    ensures FilterValues(filters, "_per_page") == []
    ensures FilterValues(filters, "_sort") == []
  {
    if filters.Some? {
      NoFilterUnderReservedKey(filters.value, "_page");
      NoFilterUnderReservedKey(filters.value, "_per_page");
      NoFilterUnderReservedKey(filters.value, "_sort");
    }
  }

  lemma {:induction false} FilterValidNone(sort: seq<string>)
    requires forall i :: 0 <= i < |sort| ==> !IsValidSortValue(sort[i])
    ensures FilterValid(sort) == []
    decreases |sort|
  {
    if |sort| > 0 {
      FilterValidNone(sort[1..]);
    }
  }

  /** When every sort value is rejected, `_sort` is still sent, as the empty string. */
  lemma AllInvalidSortGivesEmptySort(filters: Option<Filters>, page: int, perPage: int, sort: seq<string>)
    requires |sort| > 0
    requires forall i :: 0 <= i < |sort| ==> !IsValidSortValue(sort[i])
    ensures GetAll(GenerateHttpParams(filters, page, perPage, Some(sort)), "_sort") == [""]
  {
    FilterValidNone(sort);
  }

  /** The page parameters read back as the numbers they were built from. */
  lemma PageParamsRoundTrip(filters: Option<Filters>, page: int, perPage: int, sort: Option<seq<string>>)
    ensures var r := GenerateHttpParams(filters, page, perPage, sort);
      && Get(r, "_page").Some? && ParseInt(Get(r, "_page").value) == Some(page)
      && Get(r, "_per_page").Some? && ParseInt(Get(r, "_per_page").value) == Some(perPage)
  {
    IntRoundTrip(page);
    IntRoundTrip(perPage);
  }
}

=== FILE: legacy_pet_list.dfy ===
/**
 * The first revision of the pet list page: one page and a page size that
 * the events only ever reset, and a filter form whose values are handed to
 * a list request that takes no arguments.
 */
module LegacyPetList {
  import opened Wrappers
  import opened HttpQuery
  import opened DeviceService
  import opened PetListPage
  import LegacyPetsService

  /**
   * `device` is the device signal. The device stream emits the class of the
   * current width as soon as it is subscribed to, so the signal holds a class
   * from construction on.
   */
  datatype LegacyState = LegacyState(page: int, pageSize: int, device: Device, form: Form)

  /**
   * What the page sends: the construction's `getList()` with no arguments,
   * or a list request carrying the query the page builds and the path the
   * service actually asks for, which ignores it.
   */
  datatype LegacyEffect = Quiet | FetchAll(path: string) | ListRequest(query: ListQuery, path: string)

  /**
   * The page as constructed in a window of `width` pixels: page 1 of 10, the
   * width's device class, an empty form, and the argument-free list request.
   */
  function LegacyInit(width: int): (r: (LegacyState, LegacyEffect))
    ensures r.0.page == 1 && r.0.pageSize == 10 && r.0.form == InitialForm
    ensures r.0.device == GetDevice(width, [])[0]
    ensures r.1 == FetchAll(LegacyPetsService.ListPath)
  {
    (LegacyState(1, 10, ClassifyWidth(width), InitialForm), FetchAll(LegacyPetsService.ListPath))
  }

  /** `updatePetList`: the form's query for the current page, sent to the fixed list path. */
  function LegacyUpdatePetList(s: LegacyState): (e: LegacyEffect)
    ensures e.ListRequest? && e.path == LegacyPetsService.ListPath
    ensures e.query == BuildQuery(s.form, s.page, s.pageSize)
  {
    ListRequest(BuildQuery(s.form, s.page, s.pageSize), LegacyPetsService.ListPath)
  }

  /** `onSubmitFiltersForm`: page 1, then a request. */
  function LegacySubmit(s: LegacyState): (r: (LegacyState, LegacyEffect))
    ensures r.0 == s.(page := 1)
    ensures r.1.ListRequest? && r.1.query.page == 1 && r.1.query.perPage == s.pageSize
    ensures r.1 == LegacyUpdatePetList(r.0)
  {
    var s' := s.(page := 1);
    (s', LegacyUpdatePetList(s'))
  }

  /** `onResetSearch`: cleared form, page size 10, page 1, then a request. */
  function LegacyReset(s: LegacyState): (r: (LegacyState, LegacyEffect))
    ensures r.0 == s.(form := ResetForm, pageSize := 10, page := 1)
    ensures r.1.ListRequest? && r.1.query.page == 1 && r.1.query.perPage == 10
    ensures r.1.query.sort == [] && DefinedValues(r.1.query.filters, "name") == []
    ensures r.1 == LegacyUpdatePetList(r.0)
  {
    var s' := s.(form := ResetForm, pageSize := 10, page := 1);
    (s', LegacyUpdatePetList(s'))
  }

  /** The debounced form notification: on desktop page 1 and a request; otherwise nothing. */
  function LegacyFormValuesChange(s: LegacyState): (r: (LegacyState, LegacyEffect))
    ensures s.device == Desktop ==> r.0 == s.(page := 1) && r.1 == LegacyUpdatePetList(r.0)
    ensures s.device != Desktop ==> r == (s, Quiet)
  {
    if s.device == Desktop then
      var s' := s.(page := 1);
      (s', LegacyUpdatePetList(s'))
    else (s, Quiet)
  }

  datatype LegacyEvent =
    | LegacySubmitFilters
    | LegacyResetSearch
    | LegacyEditForm(form: Form)
    | LegacyFormSettled
    | LegacyDeviceChange(device: Device)

  function LegacyStep(s: LegacyState, e: LegacyEvent): (LegacyState, LegacyEffect) {
    match e
    case LegacySubmitFilters => LegacySubmit(s)
    case LegacyResetSearch => LegacyReset(s)
    case LegacyEditForm(form) => (s.(form := form), Quiet)
    case LegacyFormSettled => LegacyFormValuesChange(s)
    case LegacyDeviceChange(d) => (s.(device := d), Quiet)
  }

  function LegacyRun(s: LegacyState, events: seq<LegacyEvent>): LegacyState
    decreases |events|
  {
    if |events| == 0 then s
    else LegacyRun(LegacyStep(s, events[0]).0, events[1..])
  }

  /** No event moves off page 1 of 10: this revision has no pagination. */
  lemma {:induction false} LegacyStaysOnFirstPage(width: int, events: seq<LegacyEvent>)
    ensures LegacyRun(LegacyInit(width).0, events).page == 1
    ensures LegacyRun(LegacyInit(width).0, events).pageSize == 10
  {
    LegacyRunKeepsFirstPage(LegacyInit(width).0, events);
  }

  lemma {:induction false} LegacyRunKeepsFirstPage(s: LegacyState, events: seq<LegacyEvent>)
    requires s.page == 1 && s.pageSize == 10
    ensures LegacyRun(s, events).page == 1 && LegacyRun(s, events).pageSize == 10
    decreases |events|
  {
    if |events| > 0 {
      LegacyRunKeepsFirstPage(LegacyStep(s, events[0]).0, events[1..]);
    }
  }

  /**
   * Every request goes to the same path whatever the form holds, so the
   * filters and the sort never reach the server in this revision.
   */
  lemma LegacyRequestIgnoresForm(s: LegacyState, t: LegacyState, e: LegacyEvent, f: LegacyEvent)
    requires LegacyStep(s, e).1.ListRequest? && LegacyStep(t, f).1.ListRequest?
    ensures LegacyStep(s, e).1.path == LegacyStep(t, f).1.path == LegacyPetsService.ListPath
  {
  }

  /** On a device other than a desktop, a settled form sends nothing. */
  lemma LegacyFormChangeNeedsDesktop(s: LegacyState)
    requires s.device != Desktop
    ensures LegacyStep(s, LegacyFormSettled).1 == Quiet
  {
  }

  /**
   * In a desktop-wide window the device is known from construction, so the
   * first settled form already moves to page 1 and sends a request.
   */
  lemma LegacyDesktopFormSettledRequests(width: int, form: Form)
    requires width >= DesktopMinWidth
    ensures var s := LegacyStep(LegacyInit(width).0, LegacyEditForm(form)).0;
      LegacyStep(s, LegacyFormSettled) == (s, LegacyUpdatePetList(s))
  {
  }

  /** Both revisions build the same query for the same form, page and size. */
  lemma RevisionsBuildSameQuery(s: LegacyState, t: State)
    requires s.form == t.form && s.page == t.servicePage && s.pageSize == t.pageSize
    ensures LegacyUpdatePetList(s).query == UpdatePetList(t, false).query
  {
  }
}

=== FILE: legacy_pets_service.dfy ===
/**
 * The first revision of the pets service: two request paths and the same
 * health classifier, over a pet whose id is a number or a string.
 */
module LegacyPetsService {
  import opened Wrappers
  import opened Text
  import PetsTypes
  import PetHealth
  import PetCache

  /** `number | string`. */
  datatype PetId = NumberId(n: int) | TextId(text: string)

  datatype LegacyPet = LegacyPet(
    id: PetId,
    name: string,
    kind: string,
    weight: real,
    height: real,
    length: real,
    photoUrl: string,
    description: string,
    numberOfLives: Option<real>
  )

  /** The one list endpoint; `getList` takes no arguments and always asks for it. */
  const ListPath: string := "/fever_pets_data/pets"

  /** `get(id)`: the list path, a slash and the id as given. */
  function GetPath(id: string): (path: string)
    ensures StartsWith(path, ListPath + "/")
    ensures path[|ListPath| + 1..] == id
  {
    var path := ListPath + "/" + id;
    assert path[..|ListPath| + 1] == ListPath + "/";
    path
  }

  /** Distinct ids are asked for on distinct paths. */
  lemma GetPathInjective(a: string, b: string)
    requires GetPath(a) == GetPath(b)
    ensures a == b
  {
  }

  /** Both revisions ask the same endpoints. */
  lemma PathsMatchCurrentService(id: string)
    ensures ListPath == PetCache.PetsPath
    ensures GetPath(id) == PetCache.PetPath(id)
  {
  }

  /** `calculatePetHealth` of this revision: the same branches as the current one. */
  function HealthValue(p: LegacyPet): real
    requires p.height * p.length != 0.0
  {
    p.weight / (p.height * p.length)
  }

  function CalculatePetHealth(p: LegacyPet): (h: PetHealth.Health)
    requires p.height * p.length != 0.0
    ensures h == PetHealth.Unhealthy <==>
      PetHealth.IsCatOnLastLife(p.kind, p.numberOfLives) || HealthValue(p) < 2.0 || HealthValue(p) > 5.0
    ensures h == PetHealth.Healthy <==>
      !PetHealth.IsCatOnLastLife(p.kind, p.numberOfLives) && 3.0 <= HealthValue(p) <= 5.0
    ensures h == PetHealth.VeryHealthy <==>
      !PetHealth.IsCatOnLastLife(p.kind, p.numberOfLives) && 2.0 <= HealthValue(p) < 3.0
  {
    PetHealth.Classify(PetHealth.IsCatOnLastLife(p.kind, p.numberOfLives), HealthValue(p))
  }

  /** The same pet under a numeric id, as the current revision types it. */
  function ToCurrentPet(p: LegacyPet, id: int): (q: PetsTypes.Pet)
    ensures q.id == id && q.kind == p.kind && q.weight == p.weight
    ensures q.height == p.height && q.length == p.length && q.numberOfLives == p.numberOfLives
  {
    PetsTypes.Pet(id, p.name, p.kind, p.weight, p.height, p.length, p.photoUrl, p.description, p.numberOfLives)
  }

  /** The two revisions classify every pet alike, whatever its id. */
  lemma RevisionsAgree(p: LegacyPet, id: int)
    requires p.height * p.length != 0.0
    ensures CalculatePetHealth(p) == PetHealth.CalculatePetHealth(ToCurrentPet(p, id))
  {
    assert PetHealth.HealthValue(ToCurrentPet(p, id)) == HealthValue(p);
  }

  function Example(id: string, kind: string, weight: real, height: real, length: real, lives: Option<real>): LegacyPet {
    LegacyPet(TextId(id), "", kind, weight, height, length, "", "", lives)
  }

  /**
   * The service's own examples: a 7-life cat and a dog at 10981 / (42 * 80)
   * are healthy, a cat on its last life is unhealthy whatever its size,
   * 9561 / (45 * 90) is very healthy and 1000 / (26 * 51) is unhealthy.
   */
  lemma ServiceExamples()
    ensures CalculatePetHealth(Example("1", "cat", 10981.0, 42.0, 80.0, Some(7.0))).Label() == "healthy"
    ensures CalculatePetHealth(Example("2", "cat", 4743.0, 25.0, 40.0, Some(1.0))).Label() == "unhealthy"
    ensures CalculatePetHealth(Example("3", "dog", 10981.0, 42.0, 80.0, None)).Label() == "healthy"
    ensures CalculatePetHealth(Example("4", "dog", 9561.0, 45.0, 90.0, None)).Label() == "very healthy"
    ensures CalculatePetHealth(Example("5", "dog", 1000.0, 26.0, 51.0, None)).Label() == "unhealthy"
  {
    assert 10981.0 / (42.0 * 80.0) == 10981.0 / 3360.0;
    assert 9561.0 / (45.0 * 90.0) == 9561.0 / 4050.0;
    assert 1000.0 / (26.0 * 51.0) == 1000.0 / 1326.0;
  }
}

=== FILE: pet_cache.dfy ===
/**
 * The id-keyed pet cache of the pets service: turning a list response into
 * a pet state, merging it into the cache, serving single pets from the
 * cache, and slicing a page of ids out of it.
 */
module PetCache {
  import opened Wrappers
  import opened Text
  import opened PetsTypes

  /** The ids that occur in a response. */
  ghost function IdsOf(response: seq<Pet>): set<int> {
    set i | 0 <= i < |response| :: response[i].id
  }

  /** No later pet in the response carries the id of the pet at index `i`. */
  ghost predicate IsLastWithId(response: seq<Pet>, i: int)
    requires 0 <= i < |response|
  {
    forall j :: i < j < |response| ==> response[j].id != response[i].id
  }

  /**
   * `parsePetsResponse`: one key per id of the response, mapped to the last
   * pet in the response that carries that id.
   */
  function ParsePetsResponse(response: seq<Pet>): (m: PetState)
    ensures m.Keys == IdsOf(response)
    ensures forall i :: 0 <= i < |response| && IsLastWithId(response, i) ==> m[response[i].id] == response[i]
    decreases |response|
  {
    if |response| == 0 then map[]
    else
      var init := response[..|response| - 1];
      var last := response[|response| - 1];
      var m := ParsePetsResponse(init);
      ParseStep(response, init, last, m);
      m[last.id := last]
  }

  /** One turn of the loop: adding the last pet keeps both properties. */
  lemma ParseStep(response: seq<Pet>, init: seq<Pet>, last: Pet, m: PetState)
    requires |response| > 0 && init == response[..|response| - 1] && last == response[|response| - 1]
    requires m.Keys == IdsOf(init)
    requires forall i :: 0 <= i < |init| && IsLastWithId(init, i) ==> m[init[i].id] == init[i]
    ensures m[last.id := last].Keys == IdsOf(response)
    ensures forall i :: 0 <= i < |response| && IsLastWithId(response, i) ==>
      m[last.id := last][response[i].id] == response[i]
  {
    var n := |response|;
    assert forall i :: 0 <= i < |init| ==> init[i] == response[i];
    assert IdsOf(response) == IdsOf(init) + {last.id} by {
      forall x | x in IdsOf(response) ensures x in IdsOf(init) + {last.id} {
        var i :| 0 <= i < n && response[i].id == x;
        if i < n - 1 {
          assert init[i].id == x;
        }
      }
    }
    forall i | 0 <= i < n && IsLastWithId(response, i)
      ensures m[last.id := last][response[i].id] == response[i]
    {
      if i < n - 1 {
        assert response[n - 1].id != response[i].id;
        assert IsLastWithId(init, i) by {
          forall j | i < j < |init| ensures init[j].id != init[i].id {
            assert init[j] == response[j];
          }
        }
      }
    }
  }

  /** Responses with distinct ids keep every pet, so the state has one entry per pet. */
  lemma ParseDistinctIds(response: seq<Pet>)
    requires forall i, j :: 0 <= i < j < |response| ==> response[i].id != response[j].id
    ensures |ParsePetsResponse(response)| == |response|
    ensures forall i :: 0 <= i < |response| ==> ParsePetsResponse(response)[response[i].id] == response[i]
  {
    IdsOfDistinctSize(response);
  }

  lemma {:induction false} IdsOfDistinctSize(response: seq<Pet>)
    requires forall i, j :: 0 <= i < j < |response| ==> response[i].id != response[j].id
    ensures |IdsOf(response)| == |response|
    decreases |response|
  {
    if |response| > 0 {
      var init := response[..|response| - 1];
      IdsOfDistinctSize(init);
      assert IdsOf(response) == IdsOf(init) + {response[|response| - 1].id} by {
        assert forall i :: 0 <= i < |init| ==> init[i] == response[i];
      }
      assert response[|response| - 1].id !in IdsOf(init);
    }
  }

  /** Parsing two responses one after the other is parsing their concatenation. */
  lemma {:induction false} ParseConcat(a: seq<Pet>, b: seq<Pet>)
    ensures ParsePetsResponse(a + b) == ParsePetsResponse(a) + ParsePetsResponse(b)
    decreases |b|
  {
    if |b| == 0 {
      assert a + b == a;
    } else {
      var b' := b[..|b| - 1];
      var last := b[|b| - 1];
      assert (a + b)[..|a + b| - 1] == a + b';
      assert (a + b)[|a + b| - 1] == last;
      calc {
        ParsePetsResponse(a + b);
        ParsePetsResponse(a + b')[last.id := last];
        { ParseConcat(a, b'); }
        (ParsePetsResponse(a) + ParsePetsResponse(b'))[last.id := last];
        ParsePetsResponse(a) + ParsePetsResponse(b')[last.id := last];
        ParsePetsResponse(a) + ParsePetsResponse(b);
      }
    }
  }

  /**
   * The cache update of `getList`: the old cache overwritten by the parsed
   * response. Ids the response does not mention keep their cached pet.
   */
  function MergeResponse(cache: PetState, response: seq<Pet>): (r: PetState)
    ensures r.Keys == cache.Keys + IdsOf(response)
    ensures forall id :: id in cache && id !in IdsOf(response) ==> r[id] == cache[id]
    ensures forall i :: 0 <= i < |response| && IsLastWithId(response, i) ==> r[response[i].id] == response[i]
  {
    cache + ParsePetsResponse(response)
  }

  /** Merging the same response twice changes nothing the first merge did not. */
  lemma MergeIdempotent(cache: PetState, response: seq<Pet>)
    ensures MergeResponse(MergeResponse(cache, response), response) == MergeResponse(cache, response)
  {
  }

  /** Two list responses in a row leave the cache as their concatenation would. */
  lemma MergeSequence(cache: PetState, a: seq<Pet>, b: seq<Pet>)
    ensures MergeResponse(MergeResponse(cache, a), b) == MergeResponse(cache, a + b)
  {
    ParseConcat(a, b);
  }

  // ---------------------------------------------------------------------
  // Single pets
  // ---------------------------------------------------------------------

  const PetsPath: string := "/fever_pets_data/pets"

  /** The detail endpoint of one pet: the list path, a slash and the id as given. */
  function PetPath(id: string): string {
    PetsPath + "/" + id
  }

  /** The id is read back from a detail path, so distinct ids never share a request. */
  lemma PetPathRoundTrip(id: string)
    ensures StartsWith(PetPath(id), PetsPath + "/")
    ensures PetPath(id)[|PetsPath + "/"|..] == id
  {
  }

  lemma PetPathInjective(a: string, b: string)
    requires PetPath(a) == PetPath(b)
    ensures a == b
  {
    PetPathRoundTrip(a);
    PetPathRoundTrip(b);
  }

  /** What `get` answers with: an empty pet, the cached pet, or a request for the detail path. */
  datatype GetResult = EmptyPet | FromCache(pet: Pet) | Fetch(path: string)

  /**
   * `get(id)`: a missing or empty id gives an empty pet without a request; an
   * id whose number is cached gives the cached pet; anything else fetches
   * the detail path.
   */
  function GetPet(cache: PetState, id: Option<string>): (r: GetResult)
    ensures r == EmptyPet <==> id.None? || id.value == ""
    ensures r.FromCache? <==>
      id.Some? && id.value != "" && ParseInt(id.value).Some? && ParseInt(id.value).value in cache
    ensures r.FromCache? ==> r.pet == cache[ParseInt(id.value).value]
    ensures r.Fetch? ==> r.path == PetPath(id.value)
  {
    if id.None? || id.value == "" then EmptyPet
    else
      var key := ParseInt(id.value);
      if key.Some? && key.value in cache then FromCache(cache[key.value])
      else Fetch(PetPath(id.value))
  }

  /** A pet that a list response brought in is served from the cache, with no request. */
  lemma ListedPetIsServedFromCache(cache: PetState, response: seq<Pet>, i: int)
    requires 0 <= i < |response| && IsLastWithId(response, i)
    ensures GetPet(MergeResponse(cache, response), Some(IntToString(response[i].id)))
      == FromCache(response[i])
  {
    IntRoundTrip(response[i].id);
  }

  // ---------------------------------------------------------------------
  // Id ranges
  // ---------------------------------------------------------------------

  /** The cached ids from `lo` to `hi` inclusive. */
  ghost function IdWindow(pets: PetState, lo: int, hi: int): set<int> {
    set k | k in pets && lo <= k <= hi
  }

  function Min(a: int, b: int): int {
    if a <= b then a else b
  }

  /** What the scan from `id` promises about its result `r`. */
  ghost predicate ScanResult(pets: PetState, id: int, bound: int, remaining: int, r: PetState) {
    && (forall k :: k in r ==> k in pets && r[k] == pets[k] && id <= k <= bound)
    && (forall k, k' :: k in r && k' in pets && id <= k' < k ==> k' in r)
    && |r| == Min(if remaining < 0 then 0 else remaining, |IdWindow(pets, id, bound)|)
  }

  /**
   * The loop of `getPetsByIdRange` from `id` on: ids up to `bound` are
   * visited in increasing order and each cached one is copied until
   * `remaining` more have been added.
   */
  function ScanIds(pets: PetState, id: int, bound: int, remaining: int): PetState
    decreases bound - id
  {
    if id > bound || remaining <= 0 then map[]
    else
      var rest := ScanIds(pets, id + 1, bound, if id in pets then remaining - 1 else remaining);
      if id in pets then rest[id := pets[id]] else rest
  }

  /**
   * The scan copies cached pets only, from `id` to `bound`, without skipping
   * a cached id, and stops after `remaining` of them or at `bound`.
   */
  lemma {:induction false} ScanIdsSpec(pets: PetState, id: int, bound: int, remaining: int)
    ensures ScanResult(pets, id, bound, remaining, ScanIds(pets, id, bound, remaining))
    decreases bound - id
  {
    if id > bound || remaining <= 0 {
      ScanStops(pets, id, bound, remaining);
    } else {
      var rem := if id in pets then remaining - 1 else remaining;
      ScanIdsSpec(pets, id + 1, bound, rem);
      ScanStep(pets, id, bound, remaining, ScanIds(pets, id + 1, bound, rem));
    }
  }

  lemma ScanStops(pets: PetState, id: int, bound: int, remaining: int)
    requires id > bound || remaining <= 0
    ensures ScanResult(pets, id, bound, remaining, map[])
  {
    if id > bound {
      assert IdWindow(pets, id, bound) == {};
    }
  }

  lemma ScanStep(pets: PetState, id: int, bound: int, remaining: int, rest: PetState)
    requires id <= bound && remaining > 0
    requires ScanResult(pets, id + 1, bound, if id in pets then remaining - 1 else remaining, rest)
    ensures ScanResult(pets, id, bound, remaining, if id in pets then rest[id := pets[id]] else rest)
  {
    var r := if id in pets then rest[id := pets[id]] else rest;
    assert forall k :: k in r ==> k in pets && r[k] == pets[k] && id <= k <= bound;
    assert forall k, k' :: k in r && k' in pets && id <= k' < k ==> k' in r by {
      forall k, k' | k in r && k' in pets && id <= k' < k ensures k' in r {
        if k' != id {
          assert k in rest;
        }
      }
    }
    ScanStepSize(pets, id, bound, remaining, rest);
  }

  lemma ScanStepSize(pets: PetState, id: int, bound: int, remaining: int, rest: PetState)
    requires id <= bound && remaining > 0
    requires forall k :: k in rest ==> id + 1 <= k
    requires |rest| == Min(if id in pets then remaining - 1 else remaining, |IdWindow(pets, id + 1, bound)|)
    ensures |if id in pets then rest[id := pets[id]] else rest| ==
      Min(remaining, |IdWindow(pets, id, bound)|)
  {
    WindowStep(pets, id, bound);
    if id in pets {
      assert id !in rest;
      assert |rest[id := pets[id]]| == |rest| + 1;
    }
  }

  lemma WindowStep(pets: PetState, id: int, bound: int)
    requires id <= bound
    ensures id in pets ==> |IdWindow(pets, id, bound)| == |IdWindow(pets, id + 1, bound)| + 1
    ensures id !in pets ==> IdWindow(pets, id, bound) == IdWindow(pets, id + 1, bound)
  {
    var w := IdWindow(pets, id, bound);
    var w' := IdWindow(pets, id + 1, bound);
    if id in pets {
      assert w == w' + {id};
    } else {
      assert w == w';
    }
  }

  /**
   * `getPetsByIdRange` as written: without a count (or with count 0) the whole
   * cache; otherwise the first `count` cached ids from `startId` upward, but
   * never an id above the number of cached pets.
   */
  function GetPetsByIdRange(pets: PetState, startId: int, count: Option<int>): (r: PetState)
    ensures count.None? || count.value == 0 ==> r == pets
    ensures count.Some? && count.value != 0 ==>
      && (forall k :: k in r ==> k in pets && r[k] == pets[k] && startId <= k <= |pets|)
      && (forall k, k' :: k in r && k' in pets && startId <= k' < k ==> k' in r)
      && |r| == Min(if count.value < 0 then 0 else count.value, |IdWindow(pets, startId, |pets|)|)
  {
    if count.None? || count.value == 0 then pets
    else
      ScanIdsSpec(pets, startId, |pets|, count.value);
      ScanIds(pets, startId, |pets|, count.value)
  }

  /** A cached id above the number of cached pets is never part of any page. */
  lemma HighIdsNeverListed(pets: PetState, k: int, startId: int, count: int)
    requires k in pets && k > |pets| && count != 0
    ensures k !in GetPetsByIdRange(pets, startId, Some(count))
  {
  }

  /**
   * The range the doc comment of `getPetsByIdRange` promises: without a count
   * the whole cache, otherwise the cached pets with ids from `startId` to
   * `startId + count - 1`.
   */
  function GetPetsByIdWindow(pets: PetState, startId: int, count: Option<int>): (r: PetState)
    ensures count.None? || count.value == 0 ==> r == pets
    ensures count.Some? && count.value != 0 ==>
      && r.Keys == IdWindow(pets, startId, startId + count.value - 1)
      && forall k :: k in r ==> r[k] == pets[k]
  {
    if count.None? || count.value == 0 then pets
    else map k | k in pets && startId <= k < startId + count.value :: pets[k]
  }

  /** The counterexample: with pets 1 and 3 cached, the page of ids 3 and 4 comes back empty. */
  lemma SparseCacheLosesPage(a: Pet, b: Pet)
    ensures GetPetsByIdRange(map[1 := a, 3 := b], 3, Some(2)) == map[]
    ensures GetPetsByIdWindow(map[1 := a, 3 := b], 3, Some(2)) == map[3 := b]
  {
    var pets := map[1 := a, 3 := b];
    assert |pets| == 2;
    var w := GetPetsByIdWindow(pets, 3, Some(2));
    assert w.Keys == {3};
  }

  /** The keys of a scan result are exactly the ids from `id` to `bound`, at most `remaining` of them. */
  ghost predicate KeysFromId(r: PetState, id: int, bound: int, remaining: int) {
    forall k :: k in r <==> id <= k <= bound && k < id + remaining
  }

  lemma {:induction false} ScanContiguous(pets: PetState, id: int, bound: int, remaining: int)
    requires forall k :: id <= k <= bound ==> k in pets
    ensures KeysFromId(ScanIds(pets, id, bound, remaining), id, bound, remaining)
    decreases bound - id
  {
    if id <= bound && remaining > 0 {
      var rest := ScanIds(pets, id + 1, bound, remaining - 1);
      ScanContiguous(pets, id + 1, bound, remaining - 1);
      ScanContiguousStep(pets, id, bound, remaining, rest);
    } else {
      ScanContiguousStop(pets, id, bound, remaining);
    }
  }

  lemma ScanContiguousStop(pets: PetState, id: int, bound: int, remaining: int)
    requires id > bound || remaining <= 0
    ensures KeysFromId(ScanIds(pets, id, bound, remaining), id, bound, remaining)
  {
    assert ScanIds(pets, id, bound, remaining) == map[];
  }

  /** One step of the scan over a gap-free stretch of ids adds exactly the current id. */
  lemma ScanContiguousStep(pets: PetState, id: int, bound: int, remaining: int, rest: PetState)
    requires id <= bound && remaining > 0 && id in pets
    requires rest == ScanIds(pets, id + 1, bound, remaining - 1)
    requires KeysFromId(rest, id + 1, bound, remaining - 1)
    ensures KeysFromId(ScanIds(pets, id, bound, remaining), id, bound, remaining)
  {
    assert ScanIds(pets, id, bound, remaining) == rest[id := pets[id]];
  }

  /**
   * When the cached ids are exactly 1 to N, the code and its doc comment
   * agree on every page that starts at a positive id.
   */
  lemma RangeAgreesOnContiguousCache(pets: PetState, startId: int, count: Option<int>)
    requires forall k :: k in pets <==> 1 <= k <= |pets|
    requires startId >= 1
    ensures GetPetsByIdRange(pets, startId, count) == GetPetsByIdWindow(pets, startId, count)
  {
    if count.Some? && count.value != 0 {
      ScanContiguous(pets, startId, |pets|, count.value);
      var a := GetPetsByIdRange(pets, startId, count);
      var b := GetPetsByIdWindow(pets, startId, count);
      assert forall k :: k in a <==> k in b;
    }
  }
}

=== FILE: pet_health.dfy ===
/**
 * The health classifier of the pets service: the ratio
 * weight / (height * length) is split into three bands, and a cat on its
 * last life is unhealthy whatever its measurements.
 */
module PetHealth {
  import opened Wrappers
  import opened PetsTypes

  datatype Health = Unhealthy | Healthy | VeryHealthy {
    /** The string the service returns. */
    function Label(): string {
      match this
      case Unhealthy => "unhealthy"
      case Healthy => "healthy"
      case VeryHealthy => "very healthy"
    }
  }

  /** The three labels are pairwise distinct, so a label names exactly one class. */
  lemma LabelsDistinct(a: Health, b: Health)
    requires a.Label() == b.Label()
    ensures a == b
  {
  }

  predicate IsCatOnLastLife(kind: string, lives: Option<real>) {
    kind == "cat" && lives == Some(1.0)
  }

  /**
   * The branch structure of `calculatePetHealth`, shared by both service
   * revisions, given the cat test and the ratio weight / (height * length).
   */
  function Classify(catOnLastLife: bool, healthValue: real): Health {
    if catOnLastLife then Unhealthy
    else if healthValue < 2.0 || healthValue > 5.0 then Unhealthy
    else if healthValue >= 3.0 && healthValue <= 5.0 then Healthy
    else VeryHealthy
  }

  function HealthValue(p: Pet): real
    requires p.height * p.length != 0.0
  {
    p.weight / (p.height * p.length)
  }

  /**
   * `calculatePetHealth`: a cat on its last life is unhealthy; otherwise a
   * ratio outside [2, 5] is unhealthy, [3, 5] is healthy and [2, 3) is very healthy.
   */
  function CalculatePetHealth(p: Pet): (h: Health)
    requires p.height * p.length != 0.0
    ensures IsCatOnLastLife(p.kind, p.numberOfLives) ==> h == Unhealthy
    ensures h == Unhealthy <==>
      IsCatOnLastLife(p.kind, p.numberOfLives) || HealthValue(p) < 2.0 || HealthValue(p) > 5.0
    ensures h == Healthy <==>
      !IsCatOnLastLife(p.kind, p.numberOfLives) && 3.0 <= HealthValue(p) <= 5.0
    ensures h == VeryHealthy <==>
      !IsCatOnLastLife(p.kind, p.numberOfLives) && 2.0 <= HealthValue(p) < 3.0
  {
    Classify(IsCatOnLastLife(p.kind, p.numberOfLives), HealthValue(p))
  }

  /** Comparing a quotient with a constant is comparing the dividend with a product. */
  lemma RatioBound(w: real, d: real, c: real)
    requires d > 0.0
    ensures w / d < c <==> w < c * d
    ensures w / d <= c <==> w <= c * d
  {
    var v := w / d;
    assert w == v * d;
    if v < c {
      assert (c - v) * d > 0.0;
    }
    if v <= c {
      assert (c - v) * d >= 0.0;
    }
    if w < c * d {
      assert (c - v) * d > 0.0;
    }
    if w <= c * d {
      assert (c - v) * d >= 0.0;
    }
  }

  /**
   * The classification without division: for a positive body size
   * d = height * length the bands are weight in [3d, 5d] (healthy),
   * [2d, 3d) (very healthy) and anything else (unhealthy).
   */
  lemma {:induction false} HealthByCrossMultiplication(p: Pet)
    requires p.height * p.length > 0.0
    requires !IsCatOnLastLife(p.kind, p.numberOfLives)
    ensures var d := p.height * p.length;
      && (CalculatePetHealth(p) == Healthy <==> 3.0 * d <= p.weight <= 5.0 * d)
      && (CalculatePetHealth(p) == VeryHealthy <==> 2.0 * d <= p.weight < 3.0 * d)
      && (CalculatePetHealth(p) == Unhealthy <==> p.weight < 2.0 * d || p.weight > 5.0 * d)
  {
    var d := p.height * p.length;
    var v := HealthValue(p);
    assert v == p.weight / d;
    RatioBound(p.weight, d, 2.0);
    RatioBound(p.weight, d, 3.0);
    RatioBound(p.weight, d, 5.0);
    assert v < 2.0 <==> p.weight < 2.0 * d;
    assert v < 3.0 <==> p.weight < 3.0 * d;
    assert v <= 5.0 <==> p.weight <= 5.0 * d;
  }

  /**
   * For fixed positive dimensions, raising the weight of a pet that is not a
   * cat on its last life moves it through the bands in one order only:
   * unhealthy, very healthy, healthy, unhealthy.
   */
  lemma {:induction false} HealthOrderInWeight(p: Pet, q: Pet)
    requires p.height == q.height && p.length == q.length && p.height * p.length > 0.0
    requires !IsCatOnLastLife(p.kind, p.numberOfLives) && !IsCatOnLastLife(q.kind, q.numberOfLives)
    requires p.weight <= q.weight
    ensures CalculatePetHealth(q) == VeryHealthy ==> CalculatePetHealth(p) != Healthy
    ensures CalculatePetHealth(p) == Unhealthy && CalculatePetHealth(q) != Unhealthy ==>
      p.weight < 2.0 * (p.height * p.length)
  {
    HealthByCrossMultiplication(p);
    HealthByCrossMultiplication(q);
    var d := p.height * p.length;
    assert q.height * q.length == d;
    if CalculatePetHealth(q) == VeryHealthy {
      assert q.weight < 3.0 * d;
    }
  }
}

=== FILE: pet_list_page.dfy ===
/**
 * The pagination state of the pet list page: the page held by the service
 * and mirrored by the component, the page size, the current device and the
 * filter form, updated by the page's events. Each event yields the next
 * state and what the page does next: nothing, a list request, or showing a
 * slice of the cache.
 */
module PetListPage {
  import opened Wrappers
  import opened Text
  import opened PetsTypes
  import opened HttpQuery
  import opened PetCache
  import opened DeviceService

  /** The filter form: both controls hold a string or null. */
  datatype Form = Form(sortBy: Option<string>, searchByName: Option<string>)

  /** The form as the page builds it: both controls empty. */
  const InitialForm: Form := Form(Some(""), Some(""))

  /** `form.reset()`: both controls back to null. */
  const ResetForm: Form := Form(None, None)

  const DefaultPageSize: int := 10

  /** JavaScript truthiness of a form value: neither null nor the empty string. */
  predicate Truthy(v: Option<string>) {
    v.Some? && v.value != ""
  }

  /** The arguments `updatePetList` hands to `getList`. */
  datatype ListQuery = ListQuery(filters: Filters, page: int, perPage: int, sort: seq<string>)

  /**
   * The filter and sort construction of `updatePetList`: the name filter only
   * for a non-empty search, and the chosen sort value as a one-element list.
   */
  function BuildQuery(form: Form, page: int, pageSize: int): (q: ListQuery)
    ensures q.page == page && q.perPage == pageSize
    ensures DefinedValues(q.filters, NameField.Key()) ==
      if Truthy(form.searchByName) then [form.searchByName.value] else []
    ensures forall f: PetField :: f != NameField ==> DefinedValues(q.filters, f.Key()) == []
    ensures |q.sort| <= 1
    ensures |q.sort| == 1 <==> Truthy(form.sortBy)
    ensures |q.sort| == 1 ==> q.sort[0] == form.sortBy.value
  {
    var searchByName := form.searchByName;
    var sortBy := if Truthy(form.sortBy) then [form.sortBy.value] else [];
    var filters := [(NameField, if Truthy(searchByName) then Defined(searchByName.value) else Undefined)];
    assert filters[1..] == [];
    ListQuery(filters, page, pageSize, sortBy)
  }

  /** The request parameters of a list query, as the service builds them. */
  function QueryParams(q: ListQuery): Params {
    GenerateHttpParams(Some(q.filters), q.page, q.perPage, Some(q.sort))
  }

  /** A single allow-listed sort value is read back from the request as its choice. */
  lemma SingleSortReadsBack(b: SortBy)
    ensures ReadSortParam(SortParamValue([b.ToString()])) == Some([b])
  {
    var v := b.ToString();
    SortByIsAllowListed(b);
    FilterValidSingle(v);
    SortParamRoundTrip([v]);
    var r := ReadSortParam(SortParamValue([v]));
    SortByToStringInjective(r.value[0], b);
    assert r.value == [b];
  }

  /** A single value outside the allow-list is read back as no choice at all. */
  lemma SingleInvalidSortReadsBackEmpty(v: string)
    requires !IsValidSortValue(v)
    ensures ReadSortParam(SortParamValue([v])) == Some([])
  {
    FilterValidSingle(v);
    SortParamRoundTrip([v]);
  }

  lemma FilterValidSingle(v: string)
    ensures FilterValid([v]) == if IsValidSortValue(v) then [v] else []
  {
    assert [v][0] == v && [v][1..] == [];
  }

  /**
   * What reaches the server for a form: the page numbers, and a `name`
   * parameter exactly when the search is non-empty.
   */
  lemma FormFiltersReachServer(form: Form, page: int, pageSize: int)
    ensures var ps := QueryParams(BuildQuery(form, page, pageSize));
      && GetAll(ps, "_page") == [IntToString(page)]
      && GetAll(ps, "_per_page") == [IntToString(pageSize)]
      && GetAll(ps, "name") == (if Truthy(form.searchByName) then [form.searchByName.value] else [])
  {
    assert !IsReservedKey("name");
    assert NameField.Key() == "name";
  }

  /**
   * A `_sort` parameter reaches the server exactly when a sort value is
   * chosen; it reads back as that choice when it is allow-listed and as no
   * choice otherwise.
   */
  lemma FormSortReachesServer(form: Form, page: int, pageSize: int)
    ensures var ps := QueryParams(BuildQuery(form, page, pageSize));
      && (Truthy(form.sortBy) <==> |GetAll(ps, "_sort")| == 1)
      && (forall b: SortBy :: form.sortBy == Some(b.ToString()) ==> GetAll(ps, "_sort") == [SortParamValue([b.ToString()])])
      && (Truthy(form.sortBy) && !IsValidSortValue(form.sortBy.value) ==> GetAll(ps, "_sort") == [SortParamValue([form.sortBy.value])])
  {
    if Truthy(form.sortBy) {
      var q := BuildQuery(form, page, pageSize);
      assert q.sort == [form.sortBy.value];
    }
  }

  /** The sort choice of the form reaches the server and is read back unchanged. */
  lemma FormSortChoiceReadsBack(form: Form, page: int, pageSize: int, b: SortBy)
    requires form.sortBy == Some(b.ToString())
    ensures ReadSortParam(Get(QueryParams(BuildQuery(form, page, pageSize)), "_sort").value) == Some([b])
  {
    FormSortReachesServer(form, page, pageSize);
    SingleSortReadsBack(b);
  }

  /** A sort value outside the allow-list reaches the server as an empty sort. */
  lemma FormInvalidSortReadsBackEmpty(form: Form, page: int, pageSize: int)
    requires Truthy(form.sortBy) && !IsValidSortValue(form.sortBy.value)
    ensures ReadSortParam(Get(QueryParams(BuildQuery(form, page, pageSize)), "_sort").value) == Some([])
  {
    FormSortReachesServer(form, page, pageSize);
    SingleInvalidSortReadsBackEmpty(form.sortBy.value);
  }

  // ---------------------------------------------------------------------
  // Page state
  // ---------------------------------------------------------------------

  /**
   * `servicePage` is the service's `currentPage`, `page` the component's copy
   * of it; `pageSize` the page-size signal; `device` the device signal.
   */
  datatype State = State(servicePage: int, page: int, pageSize: int, device: Device, form: Form)

  /** The two copies of the current page agree. */
  predicate Synced(s: State) {
    s.servicePage == s.page
  }

  /** The page as constructed: the component copies the service's page. */
  function Construct(servicePage: int, device: Device): (s: State)
    ensures Synced(s) && s.pageSize == DefaultPageSize && s.form == InitialForm
  {
    State(servicePage, servicePage, DefaultPageSize, device, InitialForm)
  }

  /** What an event makes the page do. */
  datatype Effect =
    | NoEffect
    | Request(query: ListQuery, fromSubmit: bool)  // `updatePetList(fromSubmit)`
    | Show(list: Option<PetState>)                // `petList` set from the cache

  /** `updatePetList`: a request for the service's page with the current form and page size. */
  function UpdatePetList(s: State, fromSubmit: bool): (e: Effect)
    ensures e.Request? && e.fromSubmit == fromSubmit
    ensures e.query.page == s.servicePage && e.query.perPage == s.pageSize
    ensures e.query == BuildQuery(s.form, s.servicePage, s.pageSize)
  {
    Request(BuildQuery(s.form, s.servicePage, s.pageSize), fromSubmit)
  }

  /** The first id of a page: `(page - 1) * pageSize + 1`. */
  function PageStartId(page: int, pageSize: int): int {
    (page - 1) * pageSize + 1
  }

  /** `isPetState(list) ? list : undefined` for a slice of the cache. */
  function AsPetList(m: PetState): (r: Option<PetState>)
    ensures r.Some? <==> |m| > 0
    ensures r.Some? ==> r.value == m
  {
    if |m| > 0 then Some(m) else None
  }

  /** The validator accepts a cache slice exactly when it is non-empty. */
  lemma AsPetListIsValidator(m: PetState)
    ensures AsPetList(m).Some? <==> IsPetState(StateToJs(m))
  {
    StateToJsIsPetState(m);
  }

  /** The slice of the cache a device shows: all of it on mobile, the current page elsewhere. */
  function DeviceRange(device: Device, servicePage: int, pageSize: int): (r: (int, Option<int>))
    ensures device == Mobile ==> r.1 == None
    ensures device != Mobile ==> r == (PageStartId(servicePage, pageSize), Some(pageSize))
  {
    if device == Mobile then (0, None)
    else ((servicePage - 1) * pageSize + 1, Some(pageSize))
  }

  /** `getPetList(startId, count)`: the service's scan of the cache for a range. */
  function CacheSlice(cache: PetState, range: (int, Option<int>)): (r: PetState)
    ensures range.1.None? || range.1.value == 0 ==> r == cache
    ensures forall k :: k in r ==> k in cache && r[k] == cache[k]
    ensures range.1.Some? && range.1.value != 0 ==>
      && (forall k :: k in r ==> range.0 <= k <= |cache|)
      && (forall k, k' :: k in r && k' in cache && range.0 <= k' < k ==> k' in r)
      && |r| == Min(if range.1.value < 0 then 0 else range.1.value, |IdWindow(cache, range.0, |cache|)|)
  {
    GetPetsByIdRange(cache, range.0, range.1)
  }

  // ---------------------------------------------------------------------
  // Events
  // ---------------------------------------------------------------------

  /** `onSubmitFiltersForm`: back to page 1 and a request flagged as coming from the button. */
  function OnSubmitFiltersForm(s: State): (r: (State, Effect))
    ensures r.0 == s.(servicePage := 1, page := 1)
    ensures r.1 == UpdatePetList(r.0, true)
  {
    var s' := s.(servicePage := 1, page := 1);
    (s', UpdatePetList(s', true))
  }

  /** `onResetSearch`: cleared form, page size 10, page 1, then a request. */
  function OnResetSearch(s: State): (r: (State, Effect))
    ensures r.0.servicePage == 1 && r.0.page == 1 && r.0.pageSize == DefaultPageSize
    ensures r.0.form == ResetForm && r.0.device == s.device
    ensures r.1 == UpdatePetList(r.0, false)
  {
    var s' := s.(form := ResetForm, pageSize := 10, servicePage := 1, page := 1);
    (s', UpdatePetList(s', false))
  }

  /** Typing in the form changes its values; the request waits for the debounced notification. */
  function OnEditForm(s: State, form: Form): (r: (State, Effect))
    ensures r.0 == s.(form := form) && r.1 == NoEffect
  {
    (s.(form := form), NoEffect)
  }

  /** The debounced form notification: on desktop back to page 1 and a request; elsewhere nothing. */
  function OnDesktopFormValuesChange(s: State): (r: (State, Effect))
    ensures s.device == Desktop ==> r.0 == s.(servicePage := 1, page := 1) && r.1 == UpdatePetList(r.0, false)
    ensures s.device != Desktop ==> r == (s, NoEffect)
  {
    if s.device == Desktop then
      var s' := s.(servicePage := 1, page := 1);
      (s', UpdatePetList(s', false))
    else (s, NoEffect)
  }

  /** `onPageSizeChange(n)`: page 1 with the new size, then a request. */
  function OnPageSizeChange(s: State, newPageSize: int): (r: (State, Effect))
    ensures r.0 == s.(servicePage := 1, page := 1, pageSize := newPageSize)
    ensures r.1.Request? && r.1.query.page == 1 && r.1.query.perPage == newPageSize
    ensures r.1 == UpdatePetList(r.0, false)
  {
    var s' := s.(servicePage := 1, page := 1, pageSize := newPageSize);
    (s', UpdatePetList(s', false))
  }

  /** `onPageChange(n)`: both page copies become `n`, nothing else changes, then a request. */
  function OnPageChange(s: State, newPage: int): (r: (State, Effect))
    ensures r.0 == s.(servicePage := newPage, page := newPage)
    ensures r.1.Request? && r.1.query.page == newPage && r.1.query.perPage == s.pageSize
    ensures r.1 == UpdatePetList(r.0, false)
  {
    var s' := s.(servicePage := newPage, page := newPage);
    (s', UpdatePetList(s', false))
  }

  /** `onScrollEnd`: on mobile the next page and a request; elsewhere nothing. */
  function OnScrollEnd(s: State): (r: (State, Effect))
    ensures s.device == Mobile ==>
      r.0 == s.(servicePage := s.servicePage + 1, page := s.servicePage + 1)
      && r.1.Request? && r.1.query.page == s.servicePage + 1
    ensures s.device == Mobile ==> r.1 == UpdatePetList(r.0, false)
    ensures s.device != Mobile ==> r == (s, NoEffect)
  {
    if s.device == Mobile then
      var s' := s.(page := s.servicePage + 1, servicePage := s.servicePage + 1);
      (s', UpdatePetList(s', false))
    else (s, NoEffect)
  }

  /**
   * A new value of the device stream: mobile shows the whole cache, the other
   * devices the service's scan from the first id of the service's page. The
   * page does not change.
   */
  function OnDeviceChange(s: State, cache: PetState, device: Device): (r: (State, Effect))
    ensures r.0 == s.(device := device)
    ensures device == Mobile ==> r.1 == Show(AsPetList(cache))
    ensures device != Mobile ==>
      r.1 == Show(AsPetList(GetPetsByIdRange(cache, PageStartId(s.servicePage, s.pageSize), Some(s.pageSize))))
  {
    (s.(device := device), Show(AsPetList(CacheSlice(cache, DeviceRange(device, s.servicePage, s.pageSize)))))
  }

  /**
   * A device change as the service's doc comment means it: on a device other
   * than mobile, exactly the cached pets whose ids lie on the service's page.
   */
  function OnDeviceChangeIntended(s: State, cache: PetState, device: Device): (r: (State, Effect))
    ensures r.0 == s.(device := device) && r.1.Show?
    ensures device == Mobile ==> r.1.list == AsPetList(cache)
    ensures device != Mobile && s.pageSize != 0 ==>
      forall k :: (k in cache && PageStartId(s.servicePage, s.pageSize) <= k < PageStartId(s.servicePage, s.pageSize) + s.pageSize)
        <==> (r.1.list.Some? && k in r.1.list.value)
    ensures r.1.list.Some? ==> forall k :: k in r.1.list.value ==> k in cache && r.1.list.value[k] == cache[k]
  {
    var range := DeviceRange(device, s.servicePage, s.pageSize);
    (s.(device := device), Show(AsPetList(GetPetsByIdWindow(cache, range.0, range.1))))
  }

  /** When the cached ids are exactly 1 to N, a device change shows what the doc comment promises. */
  lemma DeviceChangeAgreesOnContiguousCache(s: State, cache: PetState, device: Device)
    requires forall k :: k in cache <==> 1 <= k <= |cache|
    requires WellFormed(s)
    ensures OnDeviceChange(s, cache, device) == OnDeviceChangeIntended(s, cache, device)
  {
    if device != Mobile {
      assert (s.servicePage - 1) * s.pageSize >= 0;
      RangeAgreesOnContiguousCache(cache, PageStartId(s.servicePage, s.pageSize), Some(s.pageSize));
    }
  }

  /**
   * With only pet 3 cached, page 2 of size 2 on a desktop shows no list,
   * although pet 3 is on that page.
   */
  lemma DeviceChangeLosesSparsePage(s: State, b: Pet)
    requires s.servicePage == 2 && s.pageSize == 2
    ensures OnDeviceChange(s, map[3 := b], Desktop).1 == Show(None)
    ensures OnDeviceChangeIntended(s, map[3 := b], Desktop).1 == Show(Some(map[3 := b]))
  {
    var cache := map[3 := b];
    assert |cache| == 1;
    var scan := GetPetsByIdRange(cache, 3, Some(2));
    assert scan == map[] by {
      assert forall k :: k !in scan;
    }
    var w := GetPetsByIdWindow(cache, 3, Some(2));
    assert w.Keys == {3} && w[3] == b;
    assert w == map[3 := b];
  }

  /**
   * `ngOnInit` with the first id of the service's page: the service's scan
   * from there when the validator accepts it, a request otherwise.
   */
  function OnInit(s: State, cache: PetState): (r: (State, Effect))
    ensures r.0 == s
    ensures var slice := GetPetsByIdRange(cache, PageStartId(s.servicePage, s.pageSize), Some(s.pageSize));
      (|slice| > 0 ==> r.1 == Show(Some(slice))) && (|slice| == 0 ==> r.1 == UpdatePetList(s, false))
  {
    var slice := CacheSlice(cache, (PageStartId(s.servicePage, s.pageSize), Some(s.pageSize)));
    if |slice| > 0 then (s, Show(Some(slice))) else (s, UpdatePetList(s, false))
  }

  /** The first id `ngOnInit` asks for as written: the page number itself. */
  function InitStartIdAsWritten(s: State): int {
    s.servicePage
  }

  /** `ngOnInit` as written: the cache slice from id `currentPage`, by the service's own scan. */
  function OnInitAsWritten(s: State, cache: PetState): (r: (State, Effect))
    ensures r.0 == s
    ensures var slice := GetPetsByIdRange(cache, InitStartIdAsWritten(s), Some(s.pageSize));
      (|slice| > 0 ==> r.1 == Show(Some(slice))) && (|slice| == 0 ==> r.1 == UpdatePetList(s, false))
  {
    var slice := GetPetsByIdRange(cache, s.servicePage, Some(s.pageSize));
    if |slice| > 0 then (s, Show(Some(slice))) else (s, UpdatePetList(s, false))
  }

  /**
   * Start-up runs `ngOnInit` and then subscribes to the device stream, which
   * emits the current class at once, so the list shown is the device
   * change's. Start-up leaves the page blank when `ngOnInit` sends no request
   * and the device change then shows no list.
   */
  predicate LeavesPageBlank(init: Effect, deviceShown: Effect) {
    !init.Request? && deviceShown == Show(None)
  }

  /**
   * A page constructed on service page 2 (the service outlives the page, so
   * it can hold page 2 when the page is built again) with pets 1 and 2
   * cached, on a desktop or tablet: start-up as written finds pet 2 from id 2
   * and sends no request, and the device change then shows the empty page of
   * ids 11 to 20. Starting from the page's first id, start-up requests the
   * page instead.
   */
  lemma InitLeavesPageBlank(d: Device, a: Pet, b: Pet)
    requires d != Mobile
    ensures var s := Construct(2, d);
      LeavesPageBlank(OnInitAsWritten(s, map[1 := a, 2 := b]).1, OnDeviceChange(s, map[1 := a, 2 := b], d).1)
    ensures var s := Construct(2, d);
      OnInit(s, map[1 := a, 2 := b]).1 == UpdatePetList(s, false)
  {
    var s := Construct(2, d);
    var cache := map[1 := a, 2 := b];
    assert cache.Keys == {1, 2};
    assert |cache| == 2;
    assert IdWindow(cache, 2, 2) == {2};
    assert |GetPetsByIdRange(cache, 2, Some(10))| == 1;
    assert PageStartId(2, 10) == 11;
    var page := GetPetsByIdRange(cache, 11, Some(10));
    assert page == map[] by {
      assert forall k :: k !in page;
    }
  }

  /** With the page's first id, start-up always either requests the page or shows a list. */
  lemma StartUpNeverLeavesPageBlank(s: State, cache: PetState)
    ensures !LeavesPageBlank(OnInit(s, cache).1, OnDeviceChange(s, cache, s.device).1)
  {
    var slice := GetPetsByIdRange(cache, PageStartId(s.servicePage, s.pageSize), Some(s.pageSize));
    if |slice| > 0 && s.device == Mobile && s.pageSize != 0 {
      NonEmptyHasKey(slice);
      var k :| k in slice;
      assert k in cache;
    }
  }

  /** On every page except the first, the written start id differs from the page's first id. */
  lemma InitStartIdAsWrittenAgreesOnlyOnPageOne(s: State)
    requires s.pageSize > 1 && s.servicePage >= 1
    ensures InitStartIdAsWritten(s) == PageStartId(s.servicePage, s.pageSize) <==> s.servicePage == 1
  {
    if s.servicePage > 1 {
      MulMonotone(2, s.pageSize, s.servicePage - 1);
    }
  }

  /** On a non-mobile device, start-up shows what a device change shows on the same state. */
  lemma InitShowsDevicePage(s: State, cache: PetState)
    requires s.device != Mobile
    requires OnInit(s, cache).1.Show?
    ensures OnInit(s, cache).1 == OnDeviceChange(s, cache, s.device).1
  {
  }

  datatype Event =
    | SubmitFiltersForm
    | ResetSearch
    | EditForm(form: Form)
    | DesktopFormValuesChange
    | PageSizeChange(pageSize: int)
    | PageChange(page: int)
    | ScrollEnd
    | DeviceChange(device: Device)

  function Step(s: State, cache: PetState, e: Event): (State, Effect) {
    match e
    case SubmitFiltersForm => OnSubmitFiltersForm(s)
    case ResetSearch => OnResetSearch(s)
    case EditForm(form) => OnEditForm(s, form)
    case DesktopFormValuesChange => OnDesktopFormValuesChange(s)
    case PageSizeChange(n) => OnPageSizeChange(s, n)
    case PageChange(n) => OnPageChange(s, n)
    case ScrollEnd => OnScrollEnd(s)
    case DeviceChange(d) => OnDeviceChange(s, cache, d)
  }

  /** The state after a sequence of events (the cache is held fixed). */
  function Run(s: State, cache: PetState, events: seq<Event>): State
    decreases |events|
  {
    if |events| == 0 then s
    else Run(Step(s, cache, events[0]).0, cache, events[1..])
  }

  /** Every event keeps the component's page equal to the service's. */
  lemma StepKeepsSynced(s: State, cache: PetState, e: Event)
    requires Synced(s)
    ensures Synced(Step(s, cache, e).0)
  {
  }

  lemma {:induction false} RunKeepsSynced(s: State, cache: PetState, events: seq<Event>)
    requires Synced(s)
    ensures Synced(Run(s, cache, events))
    decreases |events|
  {
    if |events| > 0 {
      StepKeepsSynced(s, cache, events[0]);
      RunKeepsSynced(Step(s, cache, events[0]).0, cache, events[1..]);
    }
  }

  /** Every request an event sends asks for the page and page size of the state it leaves behind. */
  lemma FetchMatchesState(s: State, cache: PetState, e: Event)
    ensures var (s', eff) := Step(s, cache, e);
      eff.Request? ==>
        && GetAll(QueryParams(eff.query), "_page") == [IntToString(s'.servicePage)]
        && GetAll(QueryParams(eff.query), "_per_page") == [IntToString(s'.pageSize)]
  {
  }

  /** Page numbers and sizes the page can be handed. */
  predicate WellFormedEvent(e: Event) {
    (e.PageSizeChange? ==> e.pageSize >= 1) && (e.PageChange? ==> e.page >= 1)
  }

  predicate WellFormed(s: State) {
    s.servicePage >= 1 && s.pageSize >= 1
  }

  /** With positive pages and sizes handed in, every page shown starts at a positive id. */
  lemma {:induction false} RunKeepsWellFormed(s: State, cache: PetState, events: seq<Event>)
    requires WellFormed(s)
    requires forall i :: 0 <= i < |events| ==> WellFormedEvent(events[i])
    ensures WellFormed(Run(s, cache, events))
    ensures PageStartId(Run(s, cache, events).servicePage, Run(s, cache, events).pageSize) >= 1
    decreases |events|
  {
    if |events| > 0 {
      assert WellFormedEvent(events[0]);
      RunKeepsWellFormed(Step(s, cache, events[0]).0, cache, events[1..]);
    } else {
      assert (s.servicePage - 1) * s.pageSize >= 0;
    }
  }

  /** On mobile, each scroll to the end advances the page by exactly one. */
  lemma {:induction false} ScrollingOnMobile(s: State, cache: PetState, n: nat)
    requires s.device == Mobile && Synced(s)
    ensures Run(s, cache, Scrolls(n)) ==
      s.(servicePage := s.servicePage + n, page := s.servicePage + n)
    decreases n
  {
    if n > 0 {
      var s1 := Step(s, cache, ScrollEnd).0;
      assert s1 == s.(servicePage := s.servicePage + 1, page := s.servicePage + 1);
      assert Scrolls(n)[0] == ScrollEnd && Scrolls(n)[1..] == Scrolls(n - 1);
      assert Run(s, cache, Scrolls(n)) == Run(s1, cache, Scrolls(n - 1));
      ScrollingOnMobile(s1, cache, n - 1);
    }
  }

  /** `n` scrolls to the end of the list. */
  function Scrolls(n: nat): (es: seq<Event>)
    ensures |es| == n
  {
    if n == 0 then [] else [ScrollEnd] + Scrolls(n - 1)
  }

  /**
   * Pages of a positive size cover the positive ids without overlap: id `k`
   * falls in the window of page `(k - 1) / size + 1` and of no other page.
   */
  lemma PagesPartitionIds(k: int, size: int, page: int)
    requires k >= 1 && size >= 1 && page >= 1
    ensures PageStartId(page, size) <= k < PageStartId(page, size) + size <==> page == (k - 1) / size + 1
  {
    var q := (k - 1) / size;
    var p := page - 1;
    assert q * size <= k - 1 < q * size + size;
    assert PageStartId(page, size) == p * size + 1;
    if p < q {
      MulMonotone(p + 1, q, size);
    } else if p > q {
      MulMonotone(q + 1, p, size);
    }
  }

  lemma MulMonotone(a: int, b: int, c: int)
    requires a <= b && c >= 0
    ensures a * c <= b * c
  {
  }

  /** Every cached pet with a positive id is shown on exactly one page of the documented windows. */
  lemma CachedPetOnExactlyOnePage(cache: PetState, k: int, size: int, page: int)
    requires k in cache && k >= 1 && size >= 1 && page >= 1
    ensures k in GetPetsByIdWindow(cache, PageStartId(page, size), Some(size)) <==> page == (k - 1) / size + 1
  {
    PagesPartitionIds(k, size, page);
  }

  // ---------------------------------------------------------------------
  // The list response
  // ---------------------------------------------------------------------

  /**
   * The subscription of `updatePetList`: the response is merged into the
   * cache; mobile (unless the request came from the submit button) shows the
   * whole cache, everything else shows just the response.
   */
  function OnListResponse(s: State, cache: PetState, response: seq<Pet>, fromSubmit: bool)
    : (r: (PetState, Option<PetState>))
    ensures r.0 == MergeResponse(cache, response)
    ensures s.device == Mobile && !fromSubmit ==> r.1 == AsPetList(r.0)
    ensures !(s.device == Mobile && !fromSubmit) ==> r.1 == Some(ParsePetsResponse(response))
  {
    var cache' := MergeResponse(cache, response);
    if s.device == Mobile && !fromSubmit then (cache', AsPetList(CacheSlice(cache', (0, None))))
    else (cache', Some(ParsePetsResponse(response)))
  }

  /** Infinite scroll on mobile: what was shown stays shown, and the new pets are added. */
  lemma MobileListAccumulates(s: State, cache: PetState, response: seq<Pet>)
    requires s.device == Mobile && |cache| > 0
    ensures var (cache', shown) := OnListResponse(s, cache, response, false);
      shown.Some? && cache.Keys <= shown.value.Keys && IdsOf(response) <= shown.value.Keys
  {
    var cache' := MergeResponse(cache, response);
    assert |cache'| >= |cache| by {
      assert cache.Keys <= cache'.Keys;
      SubsetCardinality(cache.Keys, cache'.Keys);
    }
  }

  lemma SubsetCardinality(a: set<int>, b: set<int>)
    requires a <= b
    ensures |a| <= |b|
  {
    assert b == a + (b - a);
  }
}

=== FILE: pets_types.dfy ===
/**
 * The catalogue's data types: a pet record, the id-keyed pet state, the ten
 * sort choices of the filter form, and the runtime validator that decides
 * whether an arbitrary value has the shape of a pet state.
 */
module PetsTypes {
  import opened Wrappers
  import opened Text

  /** One catalogue entry. Measurements are JavaScript numbers, modelled as reals. */
  datatype Pet = Pet(
    id: int,
    name: string,
    kind: string,
    weight: real,
    height: real,
    length: real,
    photoUrl: string,
    description: string,
    numberOfLives: Option<real>  // only cats carry it
  )

  /** Pets keyed by their id. */
  type PetState = map<int, Pet>

  /** The keys of a `Partial<Pet>`, as the server spells them. */
  datatype PetField =
    | IdField | NameField | KindField | WeightField | HeightField | LengthField
    | PhotoUrlField | DescriptionField | NumberOfLivesField
  {
    function Key(): (s: string)
      ensures |s| > 0 && s[0] != '_'
    {
      match this
      case IdField => "id"
      case NameField => "name"
      case KindField => "kind"
      case WeightField => "weight"
      case HeightField => "height"
      case LengthField => "length"
      case PhotoUrlField => "photo_url"
      case DescriptionField => "description"
      case NumberOfLivesField => "number_of_lives"
    }
  }

  /** The fields a sort choice can name. */
  datatype SortField = ByName | ByWeight | ByHeight | ByLength | ByKind {
    function Name(): (s: string)
      ensures |s| > 0 && ',' !in s && s[0] != '-'
    {
      match this
      case ByName => "name"
      case ByWeight => "weight"
      case ByHeight => "height"
      case ByLength => "length"
      case ByKind => "kind"
    }
  }

  datatype Direction = Asc | Desc {
    function Suffix(): string {
      if Asc? then "Asc" else "Desc"
    }
  }

  /** A value of the `sortBy` union: a field name followed by `Asc` or `Desc`. */
  datatype SortBy = SortBy(field: SortField, dir: Direction) {
    function ToString(): (s: string)
      ensures s == field.Name() + dir.Suffix()
      ensures EndsWith(s, dir.Suffix())
    {
      var s := field.Name() + dir.Suffix();
      assert s[|s| - |dir.Suffix()|..] == dir.Suffix();
      s
    }
  }

  /** Reads a field name back; `None` for any other string. */
  function ParseSortField(s: string): (r: Option<SortField>)
    ensures r.Some? ==> r.value.Name() == s
    ensures forall f: SortField :: f.Name() == s ==> r == Some(f)
  {
    match s
    case "name" => Some(ByName)
    case "weight" => Some(ByWeight)
    case "height" => Some(ByHeight)
    case "length" => Some(ByLength)
    case "kind" => Some(ByKind)
    case _ => None
  }

  /** The suffix of a sort choice's spelling tells its direction, and the rest is the field name. */
  lemma SortByShape(b: SortBy)
    ensures EndsWith(b.ToString(), "Asc") <==> b.dir == Asc
    ensures DropLast(b.ToString(), |b.dir.Suffix()|) == b.field.Name()
  {
    var s := b.ToString();
    if b.dir == Desc {
      assert s[|s| - 3] == 'e';
    }
  }

  /** Reads a form value back as a sort choice; `None` outside the union. */
  function ParseSortBy(s: string): (r: Option<SortBy>)
    ensures r.Some? ==> r.value.ToString() == s
  {
    var dir := if EndsWith(s, "Asc") then Asc else Desc;
    if !EndsWith(s, dir.Suffix()) then None
    else
      var name := DropLast(s, |dir.Suffix()|);
      match ParseSortField(name)
      case None => None
      case Some(f) => Some(SortBy(f, dir))
  }

  /** Every sort choice is read back from its spelling. */
  lemma ParseSortByRoundTrip(b: SortBy)
    ensures ParseSortBy(b.ToString()) == Some(b)
  {
    SortByShape(b);
  }

  /** The spellings of distinct sort choices are distinct. */
  lemma SortByToStringInjective(a: SortBy, b: SortBy)
    requires a.ToString() == b.ToString()
    ensures a == b
  {
    ParseSortByRoundTrip(a);
    ParseSortByRoundTrip(b);
  }

  // ---------------------------------------------------------------------
  // Runtime values and the pet-state validator
  // ---------------------------------------------------------------------

  /** The JavaScript values the validator can be handed (`variable: any`). */
  datatype JsValue =
    | JsUndefined
    | JsNull
    | JsBool(b: bool)
    | JsNumber(n: real)
    | JsString(s: string)
    | JsObject(props: seq<(string, JsValue)>)  // own enumerable properties, in order
    | JsArray(items: seq<JsValue>)

  /** `typeof v === 'object'`: true of null, plain objects and arrays. */
  predicate TypeofObject(v: JsValue) {
    v.JsNull? || v.JsObject? || v.JsArray?
  }

  /** The key/value pairs a `for ... in` loop visits; an array's keys are its indices. */
  function Entries(v: JsValue): (es: seq<(string, JsValue)>)
    requires v.JsObject? || v.JsArray?
    ensures v.JsObject? ==> es == v.props
    ensures v.JsArray? ==>
      |es| == |v.items| && forall i :: 0 <= i < |es| ==> es[i] == (NatToString(i), v.items[i])
  {
    if v.JsObject? then v.props
    else seq(|v.items|, i requires 0 <= i < |v.items| => (NatToString(i), v.items[i]))
  }

  /** A key that `Number(key)` reads as a number: an optionally negated digit string. */
  predicate IsNumericKey(k: string) {
    IsDecimal(k) || (|k| > 1 && k[0] == '-' && IsDecimal(k[1..]))
  }

  /** The rendering of every integer is a numeric key. */
  lemma IntKeysAreNumeric(i: int)
    ensures IsNumericKey(IntToString(i))
  {
    if i < 0 {
      assert ("-" + NatToString(-i))[1..] == NatToString(-i);
    }
  }

  /** An entry the validator's loop accepts: numeric key, non-null object value. */
  predicate ValidEntry(e: (string, JsValue)) {
    IsNumericKey(e.0) && TypeofObject(e.1) && !e.1.JsNull?
  }

  /** The validator's loop over the entries from index `i` on, stopping at the first bad entry. */
  function EntriesValidFrom(es: seq<(string, JsValue)>, i: nat): (ok: bool)
    requires i <= |es|
    ensures ok <==> forall j :: i <= j < |es| ==> ValidEntry(es[j])
    decreases |es| - i
  {
    if i == |es| then true
    else if !IsNumericKey(es[i].0) then false
    else if !TypeofObject(es[i].1) || es[i].1.JsNull? then false
    else EntriesValidFrom(es, i + 1)
  }

  /**
   * `isPetState`: a non-null object with at least one key, every key numeric
   * and every value a non-null object.
   */
  function IsPetState(v: JsValue): (ok: bool)
    ensures ok <==>
      && (v.JsObject? || v.JsArray?)
      && |Entries(v)| > 0
      && forall j :: 0 <= j < |Entries(v)| ==> ValidEntry(Entries(v)[j])
  {
    if !TypeofObject(v) || v.JsNull? || |Entries(v)| == 0 then false
    else EntriesValidFrom(Entries(v), 0)
  }

  lemma RejectsNonObjects(v: JsValue)
    requires !TypeofObject(v) || v == JsNull || v == JsObject([]) || v == JsArray([])
    ensures !IsPetState(v)
  {
  }

  lemma RejectsNonNumericKey(v: JsValue, j: nat)
    requires v.JsObject? && j < |v.props| && !IsNumericKey(v.props[j].0)
    ensures !IsPetState(v)
  {
    assert !ValidEntry(Entries(v)[j]);
  }

  lemma RejectsNonObjectValue(v: JsValue, j: nat)
    requires v.JsObject? && j < |v.props|
    requires v.props[j].1.JsNull? || !TypeofObject(v.props[j].1)
    ensures !IsPetState(v)
  {
    assert !ValidEntry(Entries(v)[j]);
  }

  lemma AcceptsNumericObjectMaps(v: JsValue)
    requires v.JsObject? && |v.props| > 0
    requires forall j :: 0 <= j < |v.props| ==> IsNumericKey(v.props[j].0)
    requires forall j :: 0 <= j < |v.props| ==> v.props[j].1.JsObject?
    ensures IsPetState(v)
  {
  }

  /** An array of objects passes too: its indices are numeric keys. */
  lemma AcceptsArraysOfObjects(v: JsValue)
    requires v.JsArray? && |v.items| > 0
    requires forall j :: 0 <= j < |v.items| ==> v.items[j].JsObject?
    ensures IsPetState(v)
  {
    var es := Entries(v);
    forall j | 0 <= j < |es|
      ensures ValidEntry(es[j])
    {
      IntKeysAreNumeric(j);
    }
  }

  /** A pet as the JSON object the server sends. */
  function PetToJs(p: Pet): (v: JsValue)
    ensures v.JsObject? && |v.props| > 0
  {
    JsObject([
      ("id", JsNumber(p.id as real)),
      ("name", JsString(p.name)),
      ("kind", JsString(p.kind)),
      ("weight", JsNumber(p.weight)),
      ("height", JsNumber(p.height)),
      ("length", JsNumber(p.length)),
      ("photo_url", JsString(p.photoUrl)),
      ("description", JsString(p.description))
    ] + (if p.numberOfLives.Some? then [("number_of_lives", JsNumber(p.numberOfLives.value))] else []))
  }

  lemma NonEmptyHasKey(m: PetState)
    requires |m| > 0
    ensures exists id :: id in m
  {
    if forall id :: id !in m {
      assert false;
    }
  }

  /** A pet state as a JavaScript object: one property per id, in some order. */
  ghost function StateToJs(m: PetState): (v: JsValue)
    ensures v.JsObject? && |v.props| == |m|
    ensures forall j :: 0 <= j < |v.props| ==>
      exists id :: id in m && v.props[j] == (IntToString(id), PetToJs(m[id]))
    decreases |m|
  {
    if |m| == 0 then JsObject([])
    else
      NonEmptyHasKey(m);
      var id :| id in m;
      var rest := StateToJs(m - {id});
      var props := [(IntToString(id), PetToJs(m[id]))] + rest.props;
      assert forall j :: 1 <= j < |props| ==> props[j] == rest.props[j - 1];
      JsObject(props)
  }

  /** Every non-empty pet state passes the validator, and the empty one does not. */
  lemma StateToJsIsPetState(m: PetState)
    ensures IsPetState(StateToJs(m)) <==> |m| > 0
  {
    var v := StateToJs(m);
    forall j | 0 <= j < |v.props|
      ensures ValidEntry(v.props[j])
    {
      var id :| id in m && v.props[j] == (IntToString(id), PetToJs(m[id]));
      IntKeysAreNumeric(id);
    }
  }
}

=== FILE: text.dfy ===
/**
 * Strings as the pet catalogue uses them: decimal renderings of numbers
 * (`n.toString()`, `Number(s)` on digit strings), suffix tests and slices
 * (`endsWith`, `slice(0, -k)`), and comma joins (`Array.prototype.join`)
 * together with the matching split.
 */
module Text {
  import opened Wrappers

  predicate IsDigit(c: char) {
    '0' <= c <= '9'
  }

  /** A non-empty string of ASCII decimal digits. */
  predicate IsDecimal(s: string) {
    |s| > 0 && forall i :: 0 <= i < |s| ==> IsDigit(s[i])
  }

  function DigitChar(d: nat): (c: char)
    requires d < 10
    ensures IsDigit(c)
  {
    "0123456789"[d]
  }

  function DigitValue(c: char): (d: nat)
    requires IsDigit(c)
    ensures d < 10
    ensures DigitChar(d) == c
  {
    (c - '0') as nat
  }

  /** The value of a digit string read in base ten (leading zeros allowed). */
  function DecimalValue(s: string): nat
    requires IsDecimal(s)
    decreases |s|
  {
    if |s| == 1 then DigitValue(s[0])
    else DecimalValue(s[..|s| - 1]) * 10 + DigitValue(s[|s| - 1])
  }

  /** The shortest base-ten rendering of `n`, as `n.toString()` prints it. */
  function NatToString(n: nat): (s: string)
    ensures IsDecimal(s)
    ensures n < 10 <==> |s| == 1
    ensures |s| > 1 ==> s[0] != '0'
    decreases n
  {
    if n < 10 then [DigitChar(n)]
    else NatToString(n / 10) + [DigitChar(n % 10)]
  }

  /** `i.toString()` for an integer `i`. */
  function IntToString(i: int): string {
    if i < 0 then "-" + NatToString(-i) else NatToString(i)
  }

  /** Reading back a rendered natural number gives the number. */
  lemma {:induction false} DecimalRoundTrip(n: nat)
    ensures DecimalValue(NatToString(n)) == n
    decreases n
  {
    if n >= 10 {
      var s := NatToString(n);
      assert s[..|s| - 1] == NatToString(n / 10);
      DecimalRoundTrip(n / 10);
    }
  }

  /** `Number(s)` on an optionally negated digit string; `None` for anything else. */
  function ParseInt(s: string): (r: Option<int>)
    ensures IsDecimal(s) ==> r == Some(DecimalValue(s))
  {
    if |s| > 1 && s[0] == '-' && IsDecimal(s[1..]) then Some(-(DecimalValue(s[1..]) as int))
    else if IsDecimal(s) then Some(DecimalValue(s) as int)
    else None
  }

  /** Reading back a rendered integer gives the integer. */
  lemma IntRoundTrip(i: int)
    ensures ParseInt(IntToString(i)) == Some(i)
  {
    var s := IntToString(i);
    if i < 0 {
      assert s[1..] == NatToString(-i);
      DecimalRoundTrip(-i);
    } else {
      DecimalRoundTrip(i);
    }
  }

  predicate EndsWith(s: string, suffix: string) {
    |suffix| <= |s| && s[|s| - |suffix|..] == suffix
  }

  predicate StartsWith(s: string, prefix: string) {
    |prefix| <= |s| && s[..|prefix|] == prefix
  }

  /** `s.slice(0, -k)`: drops the last `k` characters, or everything when there are fewer. */
  function DropLast(s: string, k: nat): (r: string)
    ensures |s| >= k ==> s == r + s[|s| - k..]
    ensures |s| < k ==> r == ""
  {
    if |s| >= k then s[..|s| - k] else ""
  }

  /** `xs.join(sep)`. */
  function Join(xs: seq<string>, sep: char): (s: string)
    ensures |xs| > 0 ==> |s| >= |xs[0]|
    decreases |xs|
  {
    if |xs| == 0 then ""
    else if |xs| == 1 then xs[0]
    else xs[0] + [sep] + Join(xs[1..], sep)
  }

  /** `s.split(sep)`, which yields `[""]` for the empty string. */
  function Split(s: string, sep: char): (r: seq<string>)
    ensures |r| > 0
    decreases |s|
  {
    if |s| == 0 then [""]
    else
      var rest := Split(s[1..], sep);
      if s[0] == sep then [""] + rest
      else [[s[0]] + rest[0]] + rest[1..]
  }

  lemma {:induction false} SplitNoSeparator(a: string, sep: char)
    requires sep !in a
    ensures Split(a, sep) == [a]
    decreases |a|
  {
    if |a| > 0 {
      SplitNoSeparator(a[1..], sep);
      assert [a[0]] + a[1..] == a;
    }
  }

  lemma {:induction false} SplitAtSeparator(a: string, sep: char, t: string)
    requires sep !in a
    ensures Split(a + [sep] + t, sep) == [a] + Split(t, sep)
    decreases |a|
  {
    var s := a + [sep] + t;
    if |a| == 0 {
      assert s[1..] == t;
    } else {
      assert s[1..] == a[1..] + [sep] + t;
      SplitAtSeparator(a[1..], sep, t);
      assert [a[0]] + a[1..] == a;
    }
  }

  /** Splitting a join gives back the pieces, when none of them holds the separator. */
  lemma {:induction false} SplitJoin(xs: seq<string>, sep: char)
    requires |xs| > 0
    requires forall i :: 0 <= i < |xs| ==> sep !in xs[i]
    ensures Split(Join(xs, sep), sep) == xs
    decreases |xs|
  {
    if |xs| == 1 {
      SplitNoSeparator(xs[0], sep);
    } else {
      SplitJoin(xs[1..], sep);
      SplitAtSeparator(xs[0], sep, Join(xs[1..], sep));
      assert [xs[0]] + xs[1..] == xs;
    }
  }
}

=== FILE: wrappers.dfy ===
/** Optional values, standing in for TypeScript's `T | undefined` and `T | null`. */
module Wrappers {

  datatype Option<+T> = None | Some(value: T)
}
